=== FILE: README.md ===
# MediTriage rule-based triage, modelled in Dafny

MediTriage sorts free-text complaints about medical practitioners into
CONDUCT, COMPETENCE, HEALTH, NEEDS_REVIEW and MONITORING. This project models
its two deterministic, keyword-driven Python engines.

- **The rule-based classifier** (`python/meditriage-classifier.py`):
  - `_classify_with_rules` lower-cases the complaint and counts which keywords
    of three fixed 8-entry lists occur as substrings. It then picks a category
    with an if/elif tie-break chain and sets the confidence to
    `min(0.9, 0.5 + 0.1 * score)`. It grades severity by walking the
    high/medium/low keyword lists, puts an urgent action first on HIGH, and
    sets a human-review flag.
  - `classify_batch`, on the path without an AI client, produces one record
    per complaint. It defaults the id to `COMPLAINT_nnnn`.
  - `evaluate_accuracy` counts the scored records in one pass. It produces
    overall and per-category accuracy, confidence buckets, a severity
    distribution and a review count.
- **The preprocessor** (`python/meditriage-preprocessor.py`):
  - `clean_text` returns "" for empty input. Otherwise it anonymises the text
    and normalises its whitespace.
  - `extract_features` counts indicator terms, sets 0/1 pattern, progression
    and urgency flags, turns the three category scores into ratios, and
    estimates a severity.
  - `_predict_category` is the baseline decision list over those features.

The project has six modules, one per file:

- `Wrappers`: the optional dictionary keys.
- `Categories`: the two enums.
- `Text`: the Python string operations both engines rely on:
  - `str.lower()`;
  - the substring test `k in t`;
  - counting the keywords of a list;
  - `' '.join(s.split())`.
- `Classifier`: `_classify_with_rules` and `classify_batch`.
- `Accuracy`: `evaluate_accuracy`.
- `Preprocessor`: the three preprocessor operations.

The parts of the source that work step by step are methods:

- the keyword loops;
- the severity loop;
- the batch loop;
- the counting pass;
- the in-place writes of the ratio and severity keys.

The loop methods are proved equal to a specification function, and the
properties are lemmas about that function. `ExtractFeatures`, `AssignRatios`
and `AssignSeverity` instead state each key of the features they build or
write, field by field.

Values:

- Python floats are exact `real`s. Every constant compared in the source is
  a tenth, and every ratio is a quotient of integers no larger than 47. For
  these inputs the exact comparisons agree with IEEE doubles:
  - `0.5 + k * 0.1` for k = 1..4 rounds to the literals 0.6, 0.7, 0.8 and 0.9;
  - `s / t > 0.4` holds exactly when `5 s > 2 t`, and `s / t < 0.3` exactly when
    `10 s < 3 t`, for all `s <= t <= 47`;
  - two shares of one total compare like their numerators.
- Dictionaries that grow keys in first-seen order (`category_stats`,
  `severity_distribution`, `category_metrics`) are sequences of entries in
  that order.

The repository's JavaScript interface variants use a different rule list.
They are not part of this model, which follows the two Python files.

## Model

| member | source | states |
|---|---|---|
| `Wrappers.Option.GetOr` | python/meditriage-classifier.py:320-321 | `dict.get(key, default)`: the stored value when the key is present, the default otherwise |
| `Categories.CategoryName` | python/meditriage-classifier.py:22-29 | every category has a non-empty `.value` label made of capitals and underscores |
| `Categories.CategoryNamesDistinct` | python/meditriage-classifier.py:22-29 | no two categories share a label, so comparing labels compares categories |
| `Text.Lower` | python/meditriage-classifier.py:214 | `str.lower()` keeps the length, maps each of `A`-`Z` to the same letter in `a`-`z`, and changes no other character, so no ASCII capital is left |
| `Text.Contains` | python/meditriage-classifier.py:227 | the executable substring test: compare the keyword with the text's prefix, else retry one character further on (its meaning is `Text.ContainsIffOccurs`) |
| `Text.ContainsIffOccurs` | python/meditriage-classifier.py:227 | the left-to-right scan behind `keyword in text_lower` succeeds exactly when some window of the text equals the keyword |
| `Text.Matches` | python/meditriage-classifier.py:226-229 | the keywords collected from one list are exactly the listed keywords found in the text (membership in both directions), never more than the list holds |
| `Text.Score` | python/meditriage-preprocessor.py:109-111 | `sum(1 for term in keys if term in t)` is at most the number of listed terms |
| `Text.AnyContains` | python/meditriage-classifier.py:280-289 | `any(k in text for k in keys)`: some listed keyword occurs (equivalent to a positive score by `Text.AnyContainsIffScore`) |
| `Text.ScoreCountsDistinctKeywords` | python/meditriage-classifier.py:223-245 | for a list without repeats, a score is the number of distinct listed keywords occurring in the text: repeated occurrences count once, and the score is at most the list length |
| `Text.AnyContainsIffScore` | python/meditriage-classifier.py:280 | `any(k in text for k in keys)` holds exactly when the list's score is positive |
| `Text.Take` | python/meditriage-classifier.py:295 | `xs[:n]` is the prefix of `xs` of exactly `min(n, len(xs))` elements |
| `Text.Join` | python/meditriage-classifier.py:258 | `sep.join(words)`: the words in order with `sep` between neighbours (its inverse for single spaces is `Text.WordsOfJoin`) |
| `Text.LeadingWordLength` | python/meditriage-preprocessor.py:87 | the first word of `str.split()` is the maximal run of non-whitespace at the start |
| `Text.Words` | python/meditriage-preprocessor.py:87 | `str.split()` yields only non-empty pieces free of whitespace |
| `Text.WordsOfJoin` | python/meditriage-preprocessor.py:87 | splitting undoes joining words with single spaces |
| `Text.JoinNormalized` | python/meditriage-preprocessor.py:87 | words joined by single spaces have no leading or trailing whitespace and only single spaces between non-space characters |
| `Text.NormalizeWhitespace` | python/meditriage-preprocessor.py:87 | `' '.join(s.split())` (its properties are `Text.NormalizeWhitespaceProperties`) |
| `Text.NormalizeWhitespaceProperties` | python/meditriage-preprocessor.py:87 | `' '.join(s.split())` keeps the words of `s`, is normalised, and is idempotent |
| `Classifier.ChooseCategory` | python/meditriage-classifier.py:247-269 | the if/elif chain yields NEEDS_REVIEW exactly when all three scores are 0 (`max_score == 0`), and otherwise one of CONDUCT, COMPETENCE, HEALTH |
| `Classifier.KeywordsFound` | python/meditriage-classifier.py:215-245 | `keywords_found`: the conduct, then competence, then health matches in list order (stated in `Classifier.ReportedKeywords` and `Classifier.ScoresCountDistinctKeywords`) |
| `Classifier.ConfidenceFor` | python/meditriage-classifier.py:252-267 | 0.3 for NEEDS_REVIEW, else `min(0.9, 0.5 + score * 0.1)` of the winning score (stated in `Classifier.ConfidenceLevels`) |
| `Classifier.CategoryAction` | python/meditriage-classifier.py:254-269 | the one action each branch of the chain appends (stated in `Classifier.ActionsFollowSeverity` and `Classifier.NoIndicatorsNeedsReview`) |
| `Classifier.Reasoning` | python/meditriage-classifier.py:253-268 | the fixed sentence for NEEDS_REVIEW, else the branch's sentence quoting `', '.join(keywords_found[:3])` (the prefix is `Text.Take`) |
| `Classifier.SeverityOf` | python/meditriage-classifier.py:271-285 | severity by precedence: HIGH on a high keyword, else MEDIUM on a medium keyword, else LOW (stated for the classifier in `Classifier.SeverityPrecedence`) |
| `Classifier.RuleClassification` | python/meditriage-classifier.py:204-299 | a rule verdict is CONDUCT, COMPETENCE, HEALTH or NEEDS_REVIEW, with confidence between 0.3 and 0.9, at most five keywords, no secondary category, and one or two actions |
| `Classifier.ScanKeywords` | python/meditriage-classifier.py:223-245 | one keyword loop adds one to the score and appends the keyword for each listed keyword present, and nothing else |
| `Classifier.GradeSeverity` | python/meditriage-classifier.py:271-285 | the severity loop over high, medium, low yields HIGH on a high keyword, else MEDIUM on a medium keyword, else LOW, and puts the urgent action first exactly on HIGH |
| `Classifier.DecideCategory` | python/meditriage-classifier.py:247-269 | the if/elif chain yields the category chosen from the scores, its confidence, its reasoning, and appends exactly its one action |
| `Classifier.ClassifyWithRules` | python/meditriage-classifier.py:204-299 | the step-by-step classifier returns exactly the rule classification of the text |
| `Classifier.ClassifyComplaint` | python/meditriage-classifier.py:319-351 | one iteration of the batch loop builds exactly the batch record of the complaint at that position |
| `Classifier.ScoresCountDistinctKeywords` | python/meditriage-classifier.py:223-245 | each of the conduct, competence and health scores counts the distinct keywords of its list in the lower-cased text, so it lies between 0 and 8 |
| `Classifier.NoIndicatorsNeedsReview` | python/meditriage-classifier.py:248-289 | NEEDS_REVIEW exactly when no keyword of any list occurs; it then comes with confidence 0.3, "Manual review required", the review flag and no keywords |
| `Classifier.CategoryTieBreak` | python/meditriage-classifier.py:247-269 | CONDUCT iff its score strictly beats both others; COMPETENCE iff not that and competence strictly beats health; HEALTH iff neither and some keyword occurs; nothing else |
| `Classifier.TiesGoToHealth` | python/meditriage-classifier.py:260-269 | competence/health ties and three-way ties with some keyword go to HEALTH |
| `Classifier.ConfidenceLevels` | python/meditriage-classifier.py:250-269 | a keyword verdict has a winning score of at least 1 and confidence `min(0.9, 0.5 + 0.1 * score)`; the confidence is always one of 0.3, 0.6, 0.7, 0.8, 0.9, and below 0.6 exactly for NEEDS_REVIEW |
| `Classifier.SeverityPrecedence` | python/meditriage-classifier.py:271-285 | HIGH iff a high keyword occurs; MEDIUM iff none does but a medium one does; LOW otherwise, so the low list never changes the result |
| `Classifier.ActionsFollowSeverity` | python/meditriage-classifier.py:250-285 | the actions are exactly [urgent action, category action] on HIGH and [category action] otherwise |
| `Classifier.ReviewFlag` | python/meditriage-classifier.py:287-289 | review is required exactly when an ambiguous phrase occurs or the verdict is NEEDS_REVIEW |
| `Classifier.ReportedKeywords` | python/meditriage-classifier.py:291-299 | the reported keywords are exactly `keywords_found[:5]`, the first `min(5, n)` of the `n` matches in list order, each a listed keyword occurring in the text; no secondary category is set |
| `Classifier.DecimalDenotes` | python/meditriage-classifier.py:320 | the decimal rendering of `n` is digits only, has no leading zero, and denotes `n` |
| `Classifier.Decimal` | python/meditriage-classifier.py:320 | `str(n)` is never empty (its digits and value are `Classifier.DecimalDenotes`) |
| `Classifier.PaddedIndex` | python/meditriage-classifier.py:320 | `f'{idx:04d}'` is at least four characters long |
| `Classifier.PaddedIndexDenotes` | python/meditriage-classifier.py:320 | `f'{idx:04d}'` is digits only, denotes `idx`, and has a leading zero only when padded to four |
| `Classifier.DefaultIdsDistinct` | python/meditriage-classifier.py:320 | complaints at different positions get different default ids |
| `Classifier.BatchRecord` | python/meditriage-classifier.py:315-351 | the record of the complaint at position `idx`: its id or the default id, its text or "", the classification and analysis fields of the rule classification of that text, and its expected category (stated in `Classifier.BatchRecordShape`) |
| `Classifier.ClassifyBatch` | python/meditriage-classifier.py:312-365 | the results are `[BatchRecord(i, c) for i, c in enumerate(complaints)]`: one record per complaint, in order, each the record of the complaint at that index |
| `Classifier.EmptyTextScoresZero` | python/meditriage-classifier.py:321 | the empty text (the default for a missing `text` key) contains no keyword |
| `Classifier.EmptyTextNeedsReview` | python/meditriage-classifier.py:321 | a complaint without text (classified as the empty string) goes to NEEDS_REVIEW |
| `Classifier.BatchRecordShape` | python/meditriage-classifier.py:315-351 | every batch record is a classification that keeps the given id or gets the id `COMPLAINT_` followed by the padded index; its original text is the complaint's text or ""; its classification and analysis fields are those of the rule classification of that text; its actual category is the complaint's `category` key, present exactly when the complaint has one; a complaint without text is NEEDS_REVIEW |
| `Accuracy.Successful` | python/meditriage-classifier.py:393 | the successful list holds exactly the records with a classification and an actual category (membership in both directions), and is as long as the results exactly when every record is scored |
| `Accuracy.IsScored` | python/meditriage-classifier.py:393 | `'classification' in r and 'actual_category' in r` |
| `Accuracy.IsCorrect` | python/meditriage-classifier.py:406-410 | `predicted == actual`: a hit means the actual label is the predicted category's label, which names no other category; a miss means the labels differ |
| `Accuracy.BandOf` | python/meditriage-classifier.py:420-426 | the medium bucket is confidence in [0.6, 0.8], the low bucket below 0.6, the high bucket above 0.8 |
| `Accuracy.CorrectCount` | python/meditriage-classifier.py:409-411 | the number of hits among the scored records (bounded in `Accuracy.CorrectCountBound`) |
| `Accuracy.BandCount` | python/meditriage-classifier.py:420-426 | the number of scored records in one confidence bucket (the buckets partition the records by `Accuracy.BandsPartition`) |
| `Accuracy.ReviewCount` | python/meditriage-classifier.py:428-430 | the number of scored records flagged for review (bounded in `Accuracy.ReviewCountBound`) |
| `Accuracy.CategoryStats` | python/meditriage-classifier.py:402-418 | `category_stats` after counting the scored records (stated in `Accuracy.CategoryStatsInvariant` and `Accuracy.CategoryStatsCounts`) |
| `Accuracy.SeverityTally` | python/meditriage-classifier.py:432-434 | `severity_distribution` after counting the scored records (stated in `Accuracy.SeverityTallySum` and `Accuracy.SeverityTallyCounts`) |
| `Accuracy.MetricOf` | python/meditriage-classifier.py:441-446 | the per-category metric `correct / total`, 0 for an empty total (bounded in `Accuracy.MetricAccuracyBounded`) |
| `Accuracy.EmptyMetrics` | python/meditriage-classifier.py:377-398 | the initial metrics returned when nothing is scored: every count 0 except `total_processed` and `errors` (stated in `Accuracy.MetricsConsistent`) |
| `Accuracy.RecordOutcome` | python/meditriage-classifier.py:413-418 | `category_stats[actual]` created on first sight, then `total += 1` and `correct += 1` on a hit (stated per category in `Accuracy.RecordOutcomeCounts`, and for the sums and entries in `Accuracy.RecordOutcomeSums` and `Accuracy.RecordOutcomeWellFormed`) |
| `Accuracy.RecordOutcomeSums` | python/meditriage-classifier.py:413-418 | counting one record adds one to the per-category totals and one to their corrects on a hit |
| `Accuracy.RecordOutcomeWellFormed` | python/meditriage-classifier.py:413-418 | counting one record keeps one entry per category, each with a positive total and no more corrects than total, and adds the record's category to the entries |
| `Accuracy.RecordOutcomeCounts` | python/meditriage-classifier.py:413-418 | counting one record adds one to its own category's total, and one to its correct count on a hit, and leaves every other category's counts unchanged |
| `Accuracy.CategoryStatsInvariant` | python/meditriage-classifier.py:402-418 | after the pass the per-category totals sum to the scored records, their corrects sum to the overall correct count, and the entries are exactly the actual categories seen, each once |
| `Accuracy.CategoryStatsCounts` | python/meditriage-classifier.py:402-418 | after the pass, each category's total is the number of scored records labelled with it, and its correct count is the number of hits among them; an unseen category reads 0 |
| `Accuracy.BandsPartition` | python/meditriage-classifier.py:420-426 | the high, medium and low confidence buckets partition the scored records |
| `Accuracy.ReviewCountBound` | python/meditriage-classifier.py:428-430 | the review count never exceeds the scored records |
| `Accuracy.CountSeverity` | python/meditriage-classifier.py:432-434 | `dist[sev] = dist.get(sev, 0) + 1` on an insertion-ordered dictionary (stated per severity in `Accuracy.CountSeverityCounts`, and for the sum in `Accuracy.CountSeverityAddsOne`) |
| `Accuracy.CountSeverityAddsOne` | python/meditriage-classifier.py:433-434 | `dist[sev] = dist.get(sev, 0) + 1` adds exactly one to the total count |
| `Accuracy.CountSeverityCounts` | python/meditriage-classifier.py:433-434 | `dist[sev] = dist.get(sev, 0) + 1` adds one to the count of `sev` and leaves every other severity's count unchanged |
| `Accuracy.SeverityTallySum` | python/meditriage-classifier.py:432-434 | the severity counts sum to the scored records |
| `Accuracy.SeverityTallyCounts` | python/meditriage-classifier.py:432-434 | after the pass, each severity's count is the number of scored records classified with that severity |
| `Accuracy.CorrectCountBound` | python/meditriage-classifier.py:409-411 | the correct count never exceeds the scored records |
| `Accuracy.TallyOf` | python/meditriage-classifier.py:401-434 | the quantities the counting pass holds after a prefix of the scored records (related to one loop step by `Accuracy.AccumulateOne`) |
| `Accuracy.AccumulateOne` | python/meditriage-classifier.py:404-434 | what one more scored record does to each quantity of the counting pass |
| `Accuracy.CountRecord` | python/meditriage-classifier.py:404-434 | one loop iteration updates the hit count, the category counters, the confidence bucket, the review count and the severity count exactly as one more record changes the tally |
| `Accuracy.CountSuccessful` | python/meditriage-classifier.py:401-434 | the counting loop over the scored records ends with exactly the tally of all of them |
| `Accuracy.ComputeCategoryMetrics` | python/meditriage-classifier.py:439-446 | one metric per category entry, in order, with accuracy `correct / total` (0 for an empty total) |
| `Accuracy.MetricsOf` | python/meditriage-classifier.py:367-448 | `errors` is 0 exactly when every record has a classification and an actual category, and positive exactly when some record lacks one |
| `Accuracy.MetricsConsistent` | python/meditriage-classifier.py:377-446 | successful plus errors is the total; no scored record gives the zeroed metrics; the buckets partition the scored records; review count at most the scored records; severity counts and per-category totals sum to the scored records; overall accuracy in [0, 1]; one well-formed entry per actual category; per-category corrects sum to the overall correct count |
| `Accuracy.EvaluateAccuracy` | python/meditriage-classifier.py:367-448 | the counting pass returns exactly the metrics of the results |
| `Accuracy.QuotientInUnitInterval` | python/meditriage-classifier.py:437 | a count of hits divided by a positive total lies in [0, 1] |
| `Accuracy.MetricAccuracyBounded` | python/meditriage-classifier.py:441 | every per-category accuracy lies in [0, 1] |
| `Accuracy.ScoredMirrorsLabels` | python/meditriage-classifier.py:393 | when every record is a classification that has an actual category exactly where its complaint has one, the scored records number the labelled complaints |
| `Accuracy.BatchScoredRecords` | python/meditriage-classifier.py:347-349 | on the records `classify_batch` produces, the record at each position is scored exactly when the complaint at that position carries a category, so the scored records number the labelled complaints |
| `Preprocessor.IndicatorTablesDistinct` | python/meditriage-preprocessor.py:29-53 | no indicator table lists a term twice |
| `Preprocessor.CleanText` | python/meditriage-preprocessor.py:65-89 | empty input gives ""; otherwise the result has the words of the anonymised text; it never has leading, trailing or adjacent whitespace |
| `Preprocessor.CleanTextNormalizationIdempotent` | python/meditriage-preprocessor.py:87 | normalising the whitespace of cleaned text again changes nothing |
| `Preprocessor.Cleaned` | python/meditriage-preprocessor.py:101-102 | `clean_text(text).lower()` is "" for empty input and has as many words as the cleaned text |
| `Preprocessor.LowerKeepsWordCount` | python/meditriage-preprocessor.py:101-105 | lower-casing keeps the number of words, which is all `text_length` reads |
| `Preprocessor.Flag` | python/meditriage-preprocessor.py:119-123 | `int(b)` is 1 exactly when `b` holds and is never above 1 |
| `Preprocessor.RatiosFollowScores` | python/meditriage-preprocessor.py:130-141 | ratios that follow the scores sum to 1 for a positive total and to 0 when no indicator occurs |
| `Preprocessor.SharesSumToOne` | python/meditriage-preprocessor.py:130-137 | the three shares of a positive total add up to 1 |
| `Preprocessor.ExtractFeatures` | python/meditriage-preprocessor.py:101-151 | the word count of the cleaned text; each score counts the listed terms in the cleaned lower-cased text and is at most its list length (15, 17, 15, 5, 4, 3, 6); each flag is 0 or 1 and is 1 exactly when a term of its list occurs; ratios are shares of the total, or all 0, summing to 1 when the total is positive; severity HIGH iff a high term occurs, MEDIUM iff no high term but a medium term or a temporal term, else LOW |
| `Preprocessor.AssignRatios` | python/meditriage-preprocessor.py:130-141 | the ratio writes give each category its share of the total score, or 0 for all three, and change no other key |
| `Preprocessor.AssignSeverity` | python/meditriage-preprocessor.py:143-149 | the severity write gives HIGH on a high count, else MEDIUM on a medium count or a temporal pattern, else LOW, and changes no other key |
| `Preprocessor.Max3` | python/meditriage-preprocessor.py:263 | `max(ratios.values())` is one of the three ratios and no smaller than any |
| `Preprocessor.Argmax` | python/meditriage-preprocessor.py:274 | `max(ratios, key=ratios.get)` is CONDUCT iff its ratio is at least both others, COMPETENCE iff it strictly beats conduct and is at least health, HEALTH iff it strictly beats both |
| `Preprocessor.PredictCategory` | python/meditriage-preprocessor.py:241-274 | the prediction is never UNKNOWN, and is HEALTH whenever the health ratio exceeds 0.4 at HIGH severity |
| `Preprocessor.MulMonotone` | python/meditriage-preprocessor.py:253 | multiplying by a positive total keeps the order of two values |
| `Preprocessor.ShareAboveTwoFifths` | python/meditriage-preprocessor.py:253 | a share exceeds 0.4 exactly when five times the score exceeds twice the total |
| `Preprocessor.SharesCompare` | python/meditriage-preprocessor.py:274 | shares of one total compare like their scores |
| `Preprocessor.HealthOverride` | python/meditriage-preprocessor.py:253 | the health override in scores needs a positive health score and HIGH severity |
| `Preprocessor.OverrideInScores` | python/meditriage-preprocessor.py:253-254 | the health override fires exactly when health holds more than two fifths of the total score and the severity is HIGH |
| `Preprocessor.LargestShareAboveThreeTenths` | python/meditriage-preprocessor.py:263-266 | with some indicator the largest of the three ratios is above 0.3, since the ratios sum to 1 |
| `Preprocessor.NeedsReviewIffNoIndicator` | python/meditriage-preprocessor.py:263-267 | without the override the prediction is NEEDS_REVIEW exactly when no category indicator occurs |
| `Preprocessor.PatternWithProgressionMonitors` | python/meditriage-preprocessor.py:269-271 | with some indicator, no override, and both a temporal pattern and a progression, the prediction is MONITORING |
| `Preprocessor.HighestScoreWins` | python/meditriage-preprocessor.py:273-274 | otherwise the prediction is the category with the highest score, ties going to CONDUCT, then COMPETENCE |

## Left out

- The AI path (`_classify_with_ai`, the client set-up, the prompts, the parsing of the model's reply, `prepare_for_llm`): these are calls into a remote model whose behaviour is not visible. `classify_batch` is modelled only for a classifier without a client, where `classify_single` falls back to `_classify_with_rules`.
- Wall-clock time and side effects are not modelled. This covers `processing_time`, the `timestamp` and `processed_date` fields, `time.sleep`, logging and the demo blocks that print and write files. The result records carry no timestamp.
- The `context` key of a complaint is read but never used on the rule-based path, and is not modelled.
- The error record of `classify_batch` (`Failed`) is part of the record type that `evaluate_accuracy` consumes. On the modelled path no exception is raised, because complaint ids and texts are strings (`Option<string>`). A non-string `text` value, which would make `.lower()` raise, is not modelled.
- `process_batch`, `generate_summary_report` (pandas DataFrames) and the text layout of `generate_report` are reporting around the core and are not modelled.
- Preprocessor.CleanText: the regular-expression substitutions for names, ids, numbers, dates, e-mail addresses and phone numbers are the function parameter `anonymize`. Their meaning depends on Python `re` word boundaries and on the order of overlapping replacements. Only the empty-input case and the whitespace normalisation are modelled.
- The `sentence_count` feature (a regular-expression split of the raw text) is not modelled.
- `str.lower()` and every substring test are modelled on ASCII letters only. Unicode case mapping, including the characters whose lower-case form is longer than one character, is not modelled. Whitespace follows Python's `str.isspace()`.
- Preprocessor.ExtractFeatures: the ratios are exact quotients, so they sum to exactly 1. With IEEE doubles the sum is 1 only up to rounding. The comparisons the prediction makes on the ratios agree with the doubles (see above).
- Accuracy.EvaluateAccuracy: `overall_accuracy` and the per-category accuracies are exact quotients, not rounded doubles.
- Preprocessor.ExtractFeatures: Python builds the features dictionary before it has ratio and severity keys. The model's record always has them: they hold 0.0 and LOW until the writes at lines 134-149.

=== FILE: accuracy.dfy ===
/**
 * `MediTriageClassifier.evaluate_accuracy`: one counting pass over the result
 * records that carry both a classification and an actual category.
 */
module Accuracy {
  import opened Categories
  import opened Classifier

  /** Per-category counters (`category_stats[actual]`), kept in first-seen order like a Python dict. */
  datatype CategoryStat = CategoryStat(category: string, total: nat, correct: nat)

  /** One entry of `category_metrics`. */
  datatype CategoryMetric = CategoryMetric(category: string, accuracy: real, total: nat, correct: nat)

  /** One entry of `severity_distribution`, in first-seen order. */
  datatype SeverityCount = SeverityCount(severity: Severity, count: nat)

  /** The metrics dictionary; accuracies are exact quotients. */
  datatype Metrics = Metrics(
    totalProcessed: nat,
    successfulClassifications: nat,
    errors: nat,
    overallAccuracy: real,
    categoryMetrics: seq<CategoryMetric>,
    confidenceHigh: nat,
    confidenceMedium: nat,
    confidenceLow: nat,
    severityDistribution: seq<SeverityCount>,
    reviewRequired: nat)

  /** `'classification' in r and 'actual_category' in r`. */
  predicate IsScored(r: ResultRecord)
  {
    r.Classified? && r.actualCategory.Some?
  }

  predicate AllScored(ss: seq<ResultRecord>)
  {
    forall i :: 0 <= i < |ss| ==> IsScored(ss[i])
  }

  /** The `successful` list: the scored records, in order. */
  function Successful(results: seq<ResultRecord>): (ss: seq<ResultRecord>)
    ensures |ss| <= |results|
    ensures AllScored(ss)
    ensures forall r :: r in ss <==> r in results && IsScored(r)
    ensures |ss| == |results| <==> AllScored(results)
  {
    if results == [] then []
    else (if IsScored(results[0]) then [results[0]] else []) + Successful(results[1..])
  }

  /** `predicted == actual`, comparing the predicted category's name with the actual label. */
  predicate IsCorrect(r: ResultRecord): (hit: bool)
    requires IsScored(r)
    ensures hit ==> r.actualCategory.value == CategoryName(r.classification.primaryCategory)
    ensures hit ==> forall c :: CategoryName(c) == r.actualCategory.value ==> c == r.classification.primaryCategory
    ensures !hit ==> CategoryName(r.classification.primaryCategory) != r.actualCategory.value
  {
    CategoryNamesDistinct();
    CategoryName(r.classification.primaryCategory) == r.actualCategory.value
  }

  datatype Band = HighBand | MediumBand | LowBand

  /** Confidence buckets: above 0.8, from 0.6 up to 0.8, below 0.6. */
  function BandOf(confidence: real): (b: Band)
    ensures b == MediumBand <==> 0.6 <= confidence <= 0.8
    ensures b == LowBand <==> confidence < 0.6
  {
    if confidence > 0.8 then HighBand else if confidence >= 0.6 then MediumBand else LowBand
  }

  // ---------------------------------------------------------------------------
  // What the loop accumulates, as functions of the records seen so far
  // ---------------------------------------------------------------------------

  function CorrectCount(ss: seq<ResultRecord>): nat
    requires AllScored(ss)
  {
    if ss == [] then 0
    else CorrectCount(ss[..|ss| - 1]) + (if IsCorrect(ss[|ss| - 1]) then 1 else 0)
  }

  function BandCount(ss: seq<ResultRecord>, band: Band): nat
    requires AllScored(ss)
  {
    if ss == [] then 0
    else BandCount(ss[..|ss| - 1], band) + (if BandOf(ss[|ss| - 1].classification.confidence) == band then 1 else 0)
  }

  function ReviewCount(ss: seq<ResultRecord>): nat
    requires AllScored(ss)
  {
    if ss == [] then 0
    else ReviewCount(ss[..|ss| - 1]) + (if ss[|ss| - 1].classification.requiresReview then 1 else 0)
  }

  /** Count one more record of category `actual`, adding the entry when the category is new. */
  function RecordOutcome(stats: seq<CategoryStat>, actual: string, hit: bool): seq<CategoryStat>
  {
    if stats == [] then [CategoryStat(actual, 1, if hit then 1 else 0)]
    else if stats[0].category == actual then
      [stats[0].(total := stats[0].total + 1, correct := stats[0].correct + if hit then 1 else 0)] + stats[1..]
    else [stats[0]] + RecordOutcome(stats[1..], actual, hit)
  }

  function CategoryStats(ss: seq<ResultRecord>): seq<CategoryStat>
    requires AllScored(ss)
  {
    if ss == [] then []
    else
      var last := ss[|ss| - 1];
      RecordOutcome(CategoryStats(ss[..|ss| - 1]), last.actualCategory.value, IsCorrect(last))
  }

  /** `severity_distribution[severity] = get(severity, 0) + 1`. */
  function CountSeverity(dist: seq<SeverityCount>, severity: Severity): seq<SeverityCount>
  {
    if dist == [] then [SeverityCount(severity, 1)]
    else if dist[0].severity == severity then [dist[0].(count := dist[0].count + 1)] + dist[1..]
    else [dist[0]] + CountSeverity(dist[1..], severity)
  }

  function SeverityTally(ss: seq<ResultRecord>): seq<SeverityCount>
    requires AllScored(ss)
  {
    if ss == [] then []
    else CountSeverity(SeverityTally(ss[..|ss| - 1]), ss[|ss| - 1].classification.severity)
  }

  /** `stats['correct'] / stats['total'] if stats['total'] > 0 else 0`. */
  function MetricOf(stat: CategoryStat): CategoryMetric
  {
    var accuracy := if stat.total > 0 then stat.correct as real / stat.total as real else 0.0;
    CategoryMetric(stat.category, accuracy, stat.total, stat.correct)
  }

  function SumTotals(stats: seq<CategoryStat>): nat
  {
    if stats == [] then 0 else stats[0].total + SumTotals(stats[1..])
  }

  function SumCorrect(stats: seq<CategoryStat>): nat
  {
    if stats == [] then 0 else stats[0].correct + SumCorrect(stats[1..])
  }

  function SumCounts(dist: seq<SeverityCount>): nat
  {
    if dist == [] then 0 else dist[0].count + SumCounts(dist[1..])
  }

  /** The actual categories of the records. */
  function ActualCategories(ss: seq<ResultRecord>): set<string>
    requires AllScored(ss)
  {
    if ss == [] then {} else ActualCategories(ss[..|ss| - 1]) + {ss[|ss| - 1].actualCategory.value}
  }

  /** The categories that have an entry. */
  function StatCategories(stats: seq<CategoryStat>): set<string>
  {
    if stats == [] then {} else {stats[0].category} + StatCategories(stats[1..])
  }

  /** Each category has one entry, with at least one record and no more correct than total. */
  predicate WellFormedStats(stats: seq<CategoryStat>)
  {
    stats == [] ||
    (0 < stats[0].total && stats[0].correct <= stats[0].total &&
     stats[0].category !in StatCategories(stats[1..]) && WellFormedStats(stats[1..]))
  }

  // ---------------------------------------------------------------------------
  // Invariants of the counting pass
  // ---------------------------------------------------------------------------

  /** Counting one record adds one to the totals and one to the corrects on a hit. */
  lemma {:induction false} RecordOutcomeSums(stats: seq<CategoryStat>, actual: string, hit: bool)
    ensures SumTotals(RecordOutcome(stats, actual, hit)) == SumTotals(stats) + 1
    ensures SumCorrect(RecordOutcome(stats, actual, hit)) == SumCorrect(stats) + (if hit then 1 else 0)
  {
    if stats != [] && stats[0].category != actual {
      RecordOutcomeSums(stats[1..], actual, hit);
    }
  }

  /** Counting one record adds its category to the entries and keeps the entries well formed. */
  lemma {:induction false} RecordOutcomeWellFormed(stats: seq<CategoryStat>, actual: string, hit: bool)
    requires WellFormedStats(stats)
    ensures WellFormedStats(RecordOutcome(stats, actual, hit))
    ensures StatCategories(RecordOutcome(stats, actual, hit)) == StatCategories(stats) + {actual}
  {
    var r := RecordOutcome(stats, actual, hit);
    if stats == [] {
      assert r[1..] == [];
    } else if stats[0].category == actual {
      assert r[1..] == stats[1..];
    } else {
      RecordOutcomeWellFormed(stats[1..], actual, hit);
      assert r[1..] == RecordOutcome(stats[1..], actual, hit);
    }
  }

  /**
   * The per-category totals sum to the number of records, their corrects sum
   * to the overall correct count, and the categories are exactly the actual
   * categories seen, each once.
   */
  lemma {:induction false} CategoryStatsInvariant(ss: seq<ResultRecord>)
    requires AllScored(ss)
    ensures WellFormedStats(CategoryStats(ss))
    ensures SumTotals(CategoryStats(ss)) == |ss|
    ensures SumCorrect(CategoryStats(ss)) == CorrectCount(ss)
    ensures StatCategories(CategoryStats(ss)) == ActualCategories(ss)
  {
    if ss != [] {
      var init, last := ss[..|ss| - 1], ss[|ss| - 1];
      CategoryStatsInvariant(init);
      RecordOutcomeSums(CategoryStats(init), last.actualCategory.value, IsCorrect(last));
      RecordOutcomeWellFormed(CategoryStats(init), last.actualCategory.value, IsCorrect(last));
    }
  }

  /** The three confidence buckets partition the records. */
  lemma {:induction false} BandsPartition(ss: seq<ResultRecord>)
    requires AllScored(ss)
    ensures BandCount(ss, HighBand) + BandCount(ss, MediumBand) + BandCount(ss, LowBand) == |ss|
  {
    if ss != [] {
      assert AllScored(ss[..|ss| - 1]);
      BandsPartition(ss[..|ss| - 1]);
    }
  }

  lemma {:induction false} ReviewCountBound(ss: seq<ResultRecord>)
    requires AllScored(ss)
    ensures ReviewCount(ss) <= |ss|
  {
    if ss != [] {
      assert AllScored(ss[..|ss| - 1]);
      ReviewCountBound(ss[..|ss| - 1]);
    }
  }

  lemma {:induction false} CountSeverityAddsOne(dist: seq<SeverityCount>, severity: Severity)
    ensures SumCounts(CountSeverity(dist, severity)) == SumCounts(dist) + 1
  {
    if dist != [] && dist[0].severity != severity {
      CountSeverityAddsOne(dist[1..], severity);
    }
  }

  /** The severity counts sum to the number of records. */
  lemma {:induction false} SeverityTallySum(ss: seq<ResultRecord>)
    requires AllScored(ss)
    ensures SumCounts(SeverityTally(ss)) == |ss|
  {
    if ss != [] {
      assert AllScored(ss[..|ss| - 1]);
      SeverityTallySum(ss[..|ss| - 1]);
      CountSeverityAddsOne(SeverityTally(ss[..|ss| - 1]), ss[|ss| - 1].classification.severity);
    }
  }

  lemma {:induction false} CorrectCountBound(ss: seq<ResultRecord>)
    requires AllScored(ss)
    ensures CorrectCount(ss) <= |ss|
  {
    if ss != [] {
      assert AllScored(ss[..|ss| - 1]);
      CorrectCountBound(ss[..|ss| - 1]);
    }
  }

  /** `category_stats.get(category, {}).get('total', 0)`: the first entry for `category`. */
  function TotalFor(stats: seq<CategoryStat>, category: string): nat
  {
    if stats == [] then 0
    else if stats[0].category == category then stats[0].total
    else TotalFor(stats[1..], category)
  }

  /** `category_stats.get(category, {}).get('correct', 0)`. */
  function CorrectFor(stats: seq<CategoryStat>, category: string): nat
  {
    if stats == [] then 0
    else if stats[0].category == category then stats[0].correct
    else CorrectFor(stats[1..], category)
  }

  /** `severity_distribution.get(severity, 0)`. */
  function CountFor(dist: seq<SeverityCount>, severity: Severity): nat
  {
    if dist == [] then 0
    else if dist[0].severity == severity then dist[0].count
    else CountFor(dist[1..], severity)
  }

  /** The number of records whose actual category is `category`. */
  function LabelledAs(ss: seq<ResultRecord>, category: string): nat
    requires AllScored(ss)
  {
    if ss == [] then 0
    else LabelledAs(ss[..|ss| - 1], category) + (if ss[|ss| - 1].actualCategory.value == category then 1 else 0)
  }

  /** The number of records whose actual category is `category` and that were classified correctly. */
  function HitsFor(ss: seq<ResultRecord>, category: string): nat
    requires AllScored(ss)
  {
    if ss == [] then 0
    else
      var last := ss[|ss| - 1];
      HitsFor(ss[..|ss| - 1], category) + (if last.actualCategory.value == category && IsCorrect(last) then 1 else 0)
  }

  /** The number of records classified with `severity`. */
  function RatedAs(ss: seq<ResultRecord>, severity: Severity): nat
    requires AllScored(ss)
  {
    if ss == [] then 0
    else RatedAs(ss[..|ss| - 1], severity) + (if ss[|ss| - 1].classification.severity == severity then 1 else 0)
  }

  /** Counting one record adds one to its own category's total (and correct, on a hit) and leaves every other category alone. */
  lemma {:induction false} RecordOutcomeCounts(stats: seq<CategoryStat>, actual: string, hit: bool, category: string)
    ensures TotalFor(RecordOutcome(stats, actual, hit), category) ==
      TotalFor(stats, category) + (if category == actual then 1 else 0)
    ensures CorrectFor(RecordOutcome(stats, actual, hit), category) ==
      CorrectFor(stats, category) + (if category == actual && hit then 1 else 0)
  {
    if stats != [] && stats[0].category != actual {
      RecordOutcomeCounts(stats[1..], actual, hit, category);
    }
  }

  /** Counting one severity adds one to that severity's count and leaves the others alone. */
  lemma {:induction false} CountSeverityCounts(dist: seq<SeverityCount>, severity: Severity, s: Severity)
    ensures CountFor(CountSeverity(dist, severity), s) == CountFor(dist, s) + (if s == severity then 1 else 0)
  {
    if dist != [] && dist[0].severity != severity {
      CountSeverityCounts(dist[1..], severity, s);
    }
  }

  /** Each category's entry counts exactly the records labelled with it, and the hits among them. */
  lemma {:induction false} CategoryStatsCounts(ss: seq<ResultRecord>, category: string)
    requires AllScored(ss)
    ensures TotalFor(CategoryStats(ss), category) == LabelledAs(ss, category)
    ensures CorrectFor(CategoryStats(ss), category) == HitsFor(ss, category)
  {
    if ss != [] {
      var init, last := ss[..|ss| - 1], ss[|ss| - 1];
      CategoryStatsCounts(init, category);
      RecordOutcomeCounts(CategoryStats(init), last.actualCategory.value, IsCorrect(last), category);
    }
  }

  /** Each severity's count is the number of records classified with it. */
  lemma {:induction false} SeverityTallyCounts(ss: seq<ResultRecord>, severity: Severity)
    requires AllScored(ss)
    ensures CountFor(SeverityTally(ss), severity) == RatedAs(ss, severity)
  {
    if ss != [] {
      var init := ss[..|ss| - 1];
      SeverityTallyCounts(init, severity);
      CountSeverityCounts(SeverityTally(init), ss[|ss| - 1].classification.severity, severity);
    }
  }

  /**
   * The quantities the counting pass updates: the overall hit count, the
   * per-category counters, the three confidence buckets, the review count and
   * the severity counts.
   */
  datatype Tally = Tally(
    correct: nat,
    stats: seq<CategoryStat>,
    high: nat,
    medium: nat,
    low: nat,
    review: nat,
    dist: seq<SeverityCount>)

  /** The tally after counting the records `ss`. */
  function TallyOf(ss: seq<ResultRecord>): Tally
    requires AllScored(ss)
  {
    Tally(CorrectCount(ss), CategoryStats(ss),
      BandCount(ss, HighBand), BandCount(ss, MediumBand), BandCount(ss, LowBand),
      ReviewCount(ss), SeverityTally(ss))
  }

  /** Counting one more record `r` moves the tally of `ss` to the tally of `ss + [r]`. */
  lemma AccumulateOne(ss: seq<ResultRecord>, r: ResultRecord)
    requires AllScored(ss) && IsScored(r)
    ensures AllScored(ss + [r])
    ensures var t, band := TallyOf(ss), BandOf(r.classification.confidence);
      TallyOf(ss + [r]) == Tally(
        t.correct + (if IsCorrect(r) then 1 else 0),
        RecordOutcome(t.stats, r.actualCategory.value, IsCorrect(r)),
        t.high + (if band == HighBand then 1 else 0),
        t.medium + (if band == MediumBand then 1 else 0),
        t.low + (if band == LowBand then 1 else 0),
        t.review + (if r.classification.requiresReview then 1 else 0),
        CountSeverity(t.dist, r.classification.severity))
  {
    assert (ss + [r])[..|ss|] == ss;
  }

  // ---------------------------------------------------------------------------
  // evaluate_accuracy
  // ---------------------------------------------------------------------------

  /** The metrics returned when no record is scored. */
  function EmptyMetrics(total: nat): Metrics
  {
    Metrics(total, 0, total, 0.0, [], 0, 0, 0, [], 0)
  }

  /**
   * The body of the counting loop for one scored record: the overall and
   * per-category hit counts, the confidence bucket, the review count and the
   * severity count.
   */
  method CountRecord(t: Tally, result: ResultRecord) returns (after: Tally)
    requires IsScored(result)
    ensures var band := BandOf(result.classification.confidence);
      after == Tally(
        t.correct + (if IsCorrect(result) then 1 else 0),
        RecordOutcome(t.stats, result.actualCategory.value, IsCorrect(result)),
        t.high + (if band == HighBand then 1 else 0),
        t.medium + (if band == MediumBand then 1 else 0),
        t.low + (if band == LowBand then 1 else 0),
        t.review + (if result.classification.requiresReview then 1 else 0),
        CountSeverity(t.dist, result.classification.severity))
  {
    after := t;
    var predicted := result.classification.primaryCategory;
    var actual := result.actualCategory.value;
    var confidence := result.classification.confidence;

    if CategoryName(predicted) == actual {
      after := after.(correct := after.correct + 1);
    }
    after := after.(stats := RecordOutcome(after.stats, actual, CategoryName(predicted) == actual));

    if confidence > 0.8 {
      after := after.(high := after.high + 1);
    } else if confidence >= 0.6 {
      after := after.(medium := after.medium + 1);
    } else {
      after := after.(low := after.low + 1);
    }

    if result.classification.requiresReview {
      after := after.(review := after.review + 1);
    }

    after := after.(dist := CountSeverity(after.dist, result.classification.severity));
  }

  /** The final loop: each category's counters with its accuracy, in the same order. */
  method ComputeCategoryMetrics(stats: seq<CategoryStat>) returns (metrics: seq<CategoryMetric>)
    ensures |metrics| == |stats|
    ensures forall i :: 0 <= i < |stats| ==> metrics[i] == MetricOf(stats[i])
  {
    metrics := [];
    for i := 0 to |stats|
      invariant |metrics| == i
      invariant forall j :: 0 <= j < i ==> metrics[j] == MetricOf(stats[j])
    {
      metrics := metrics + [MetricOf(stats[i])];
    }
  }

  /** The metrics `evaluate_accuracy` reports for `results`. */
  function MetricsOf(results: seq<ResultRecord>): (m: Metrics)
    ensures m.errors == 0 <==> AllScored(results)
    ensures m.errors > 0 <==> exists i :: 0 <= i < |results| && !IsScored(results[i])
  {
    var ss := Successful(results);
    if |ss| == 0 then EmptyMetrics(|results|)
    else
      var t := TallyOf(ss);
      Metrics(
        |results|, |ss|, |results| - |ss|,
        t.correct as real / |ss| as real,
        seq(|t.stats|, i requires 0 <= i < |t.stats| => MetricOf(t.stats[i])),
        t.high, t.medium, t.low, t.dist, t.review)
  }

  /**
   * The reported counts are consistent: scored records and errors make up the
   * total; the confidence buckets partition the scored records; the review
   * count and the overall accuracy are bounded; the per-category totals and
   * severity counts each sum to the scored records, each category has one
   * entry, no category has more correct than total, and the per-category
   * corrects add up to the overall correct count.
   */
  lemma MetricsConsistent(results: seq<ResultRecord>)
    ensures MetricsOf(results).totalProcessed == |results|
    ensures MetricsOf(results).successfulClassifications == |Successful(results)|
    ensures MetricsOf(results).successfulClassifications + MetricsOf(results).errors == |results|
    ensures |Successful(results)| == 0 ==> MetricsOf(results) == EmptyMetrics(|results|)
    ensures MetricsOf(results).confidenceHigh + MetricsOf(results).confidenceMedium
          + MetricsOf(results).confidenceLow == |Successful(results)|
    ensures MetricsOf(results).reviewRequired <= |Successful(results)|
    ensures SumCounts(MetricsOf(results).severityDistribution) == |Successful(results)|
    ensures 0.0 <= MetricsOf(results).overallAccuracy <= 1.0
    ensures |MetricsOf(results).categoryMetrics| == |CategoryStats(Successful(results))|
    ensures WellFormedStats(CategoryStats(Successful(results)))
    ensures SumTotals(CategoryStats(Successful(results))) == |Successful(results)|
    ensures SumCorrect(CategoryStats(Successful(results))) == CorrectCount(Successful(results))
    ensures StatCategories(CategoryStats(Successful(results))) == ActualCategories(Successful(results))
  {
    var ss := Successful(results);
    CategoryStatsInvariant(ss);
    BandsPartition(ss);
    ReviewCountBound(ss);
    SeverityTallySum(ss);
    if |ss| > 0 {
      CorrectCountBound(ss);
      QuotientInUnitInterval(CorrectCount(ss), |ss|);
    }
  }

  /** `evaluate_accuracy`: filter the scored records, count them in one pass, then compute the accuracies. */
  method EvaluateAccuracy(results: seq<ResultRecord>) returns (m: Metrics)
    ensures m == MetricsOf(results)
  {
    var successful := Successful(results);
    if |successful| == 0 {
      return EmptyMetrics(|results|);
    }

    var t := CountSuccessful(successful);

    var categoryMetrics := ComputeCategoryMetrics(t.stats);
    assert categoryMetrics == seq(|t.stats|, j requires 0 <= j < |t.stats| => MetricOf(t.stats[j]));
    m := Metrics(
      |results|, |successful|, |results| - |successful|,
      t.correct as real / |successful| as real,
      categoryMetrics,
      t.high, t.medium, t.low, t.dist, t.review);
  }

  /** The counting loop over the scored records. */
  method CountSuccessful(successful: seq<ResultRecord>) returns (t: Tally)
    requires AllScored(successful)
    ensures t == TallyOf(successful)
  {
    t := Tally(0, [], 0, 0, 0, 0, []);
    for i := 0 to |successful|
      invariant t == TallyOf(successful[..i])
    {
      var result := successful[i];
      assert successful[..i + 1] == successful[..i] + [result];
      AccumulateOne(successful[..i], result);
      t := CountRecord(t, result);
    }
    assert successful[..|successful|] == successful;
  }

  lemma QuotientInUnitInterval(part: nat, whole: nat)
    requires 0 < whole && part <= whole
    ensures 0.0 <= part as real / whole as real <= 1.0
  {
    assert part as real / whole as real <= whole as real / whole as real;
  }

  /** Per-category accuracy lies between 0 and 1. */
  lemma MetricAccuracyBounded(stat: CategoryStat)
    requires stat.correct <= stat.total
    ensures 0.0 <= MetricOf(stat).accuracy <= 1.0
  {
    if stat.total > 0 {
      QuotientInUnitInterval(stat.correct, stat.total);
    }
  }

  // ---------------------------------------------------------------------------
  // Scoring a batch
  // ---------------------------------------------------------------------------

  /** The number of complaints that name an expected category. */
  function LabelledCount(complaints: seq<Complaint>): nat
  {
    if complaints == [] then 0
    else (if complaints[0].category.Some? then 1 else 0) + LabelledCount(complaints[1..])
  }

  /** Counting scored records of records whose labels mirror the complaints'. */
  lemma {:induction false} ScoredMirrorsLabels(complaints: seq<Complaint>, results: seq<ResultRecord>)
    requires |results| == |complaints|
    requires forall i :: 0 <= i < |complaints| ==>
      results[i].Classified? && (results[i].actualCategory.Some? <==> complaints[i].category.Some?)
    ensures |Successful(results)| == LabelledCount(complaints)
  {
    if complaints != [] {
      ScoredMirrorsLabels(complaints[1..], results[1..]);
    }
  }

  /**
   * On the records `classify_batch` produces, the scored records are exactly
   * those of complaints with an expected category; the rest count as errors.
   */
  lemma BatchScoredRecords(complaints: seq<Complaint>, results: seq<ResultRecord>)
    requires results == MapIndexed(complaints, BatchRecord)
    ensures forall i :: 0 <= i < |complaints| ==> (IsScored(results[i]) <==> complaints[i].category.Some?)
    ensures |Successful(results)| == LabelledCount(complaints)
  {
    forall i | 0 <= i < |complaints|
      ensures results[i].Classified? && (results[i].actualCategory.Some? <==> complaints[i].category.Some?)
    {
      BatchRecordShape(i, complaints[i]);
    }
    ScoredMirrorsLabels(complaints, results);
  }
}

=== FILE: categories.dfy ===
/** The complaint categories and severity levels shared by the classifier and the preprocessor. */
module Categories {

  /** `ComplaintCategory`; the preprocessor returns the same labels as strings. */
  datatype Category = Conduct | Competence | Health | NeedsReview | Monitoring | Unknown

  /** `SeverityLevel`; the preprocessor's `estimated_severity` uses the same labels. */
  datatype Severity = High | Medium | Low

  /** The enum's `.value`, the string stored in result records. */
  function CategoryName(c: Category): (s: string)
    ensures |s| > 0
    ensures forall i :: 0 <= i < |s| ==> 'A' <= s[i] <= 'Z' || s[i] == '_'
  {
    match c
    case Conduct => "CONDUCT"
    case Competence => "COMPETENCE"
    case Health => "HEALTH"
    case NeedsReview => "NEEDS_REVIEW"
    case Monitoring => "MONITORING"
    case Unknown => "UNKNOWN"
  }

  /** No two categories share a label, so comparing labels compares categories. */
  lemma CategoryNamesDistinct()
    ensures forall a: Category, b: Category :: CategoryName(a) == CategoryName(b) ==> a == b
  {
    forall a: Category, b: Category | CategoryName(a) == CategoryName(b)
      ensures a == b
    {
      assert CategoryName(a)[..2] == CategoryName(b)[..2];
      assert |CategoryName(a)| == |CategoryName(b)|;
    }
  }
}

=== FILE: classifier.dfy ===
/**
 * The rule-based path of `MediTriageClassifier`: keyword scoring, the category
 * tie-break chain, severity grading, the review flag, and `classify_batch`
 * restricted to that path.
 */
module Classifier {
  import opened Wrappers
  import opened Categories
  import opened Text

  // ---------------------------------------------------------------------------
  // Keyword tables
  // ---------------------------------------------------------------------------

  const ConductKeywords: seq<string> :=
    ["rude", "inappropriate", "unprofessional", "dismissive",
     "disrespectful", "harassment", "boundary", "behavior"]
  const CompetenceKeywords: seq<string> :=
    ["error", "mistake", "misdiagnos", "wrong", "incorrect",
     "failed", "incompetent", "negligent"]
  const HealthKeywords: seq<string> :=
    ["impaired", "drunk", "intoxicated", "substance", "unfit",
     "unstable", "mental health", "addiction"]

  const HighSeverityKeywords: seq<string> := ["death", "serious", "emergency", "critical", "dangerous"]
  const MediumSeverityKeywords: seq<string> := ["repeated", "multiple", "pattern", "concerning"]
  const LowSeverityKeywords: seq<string> := ["minor", "slight", "small"]

  /** `severity_keywords`, in the dictionary's iteration order. */
  const SeverityKeywords: seq<(Severity, seq<string>)> :=
    [(High, HighSeverityKeywords), (Medium, MediumSeverityKeywords), (Low, LowSeverityKeywords)]

  const AmbiguousPhrases: seq<string> := ["not sure", "maybe", "possibly", "might be", "unclear"]

  const UrgentAction: string := "URGENT: Immediate action required"

  // ---------------------------------------------------------------------------
  // Results
  // ---------------------------------------------------------------------------

  /** `ClassificationResult` without its wall-clock `processing_time`; confidence is exact. */
  datatype ClassificationResult = ClassificationResult(
    category: Category,
    confidence: real,
    reasoning: string,
    keywords: seq<string>,
    severity: Severity,
    requiresHumanReview: bool,
    suggestedActions: seq<string>,
    secondaryCategory: Option<Category>)

  // ---------------------------------------------------------------------------
  // Specification of _classify_with_rules
  // ---------------------------------------------------------------------------

  function Max3(a: nat, b: nat, c: nat): nat
  {
    if a >= b && a >= c then a else if b >= c then b else c
  }

  function MinReal(a: real, b: real): real
  {
    if a <= b then a else b
  }

  /** The if/elif chain that picks the category from the three scores. */
  function ChooseCategory(conduct: nat, competence: nat, health: nat): (c: Category)
    ensures c == NeedsReview <==> conduct == 0 && competence == 0 && health == 0
    ensures c in {Conduct, Competence, Health, NeedsReview}
  {
    if Max3(conduct, competence, health) == 0 then NeedsReview
    else if conduct > competence && conduct > health then Conduct
    else if competence > health then Competence
    else Health
  }

  /** The score of the category that won (the health score for the final `else`). */
  function WinningScore(category: Category, conduct: nat, competence: nat, health: nat): nat
  {
    match category
    case Conduct => conduct
    case Competence => competence
    case _ => health
  }

  /** 0.3 with no indicator, otherwise `min(0.9, 0.5 + score * 0.1)` of the winning score. */
  function ConfidenceFor(category: Category, winning: nat): real
  {
    if category == NeedsReview then 0.3 else MinReal(0.9, 0.5 + winning as real * 0.1)
  }

  /** The one action each branch of the chain appends. */
  function CategoryAction(category: Category): string
  {
    match category
    case NeedsReview => "Manual review required"
    case Conduct => "Review professional standards policy"
    case Competence => "Clinical review recommended"
    case _ => "Immediate fitness assessment required"
  }

  /** The reasoning sentence, quoting the first three keywords found. */
  function Reasoning(category: Category, found: seq<string>): string
  {
    match category
    case NeedsReview => "No clear indicators found. Requires human review."
    case Conduct => "Behavioral/conduct indicators found: " + Join(", ", Take(found, 3))
    case Competence => "Clinical competence concerns identified: " + Join(", ", Take(found, 3))
    case _ => "Health/fitness concerns detected: " + Join(", ", Take(found, 3))
  }

  /** Severity by precedence: a high keyword, else a medium keyword, else LOW. */
  function SeverityOf(textLower: string): Severity
  {
    if AnyContains(textLower, HighSeverityKeywords) then High
    else if AnyContains(textLower, MediumSeverityKeywords) then Medium
    else Low
  }

  function ConductScore(text: string): nat { Score(Lower(text), ConductKeywords) }
  function CompetenceScore(text: string): nat { Score(Lower(text), CompetenceKeywords) }
  function HealthScore(text: string): nat { Score(Lower(text), HealthKeywords) }

  /** `keywords_found`: the matches of the three lists, conduct first, each in list order. */
  function KeywordsFound(text: string): seq<string>
  {
    var t := Lower(text);
    Matches(t, ConductKeywords) + Matches(t, CompetenceKeywords) + Matches(t, HealthKeywords)
  }

  /** What `_classify_with_rules` returns for `complaintText`. */
  function RuleClassification(complaintText: string): (r: ClassificationResult)
    ensures r.category in {Conduct, Competence, Health, NeedsReview}
    ensures 0.3 <= r.confidence <= 0.9
    ensures |r.keywords| <= 5 && r.secondaryCategory == None
    ensures 1 <= |r.suggestedActions| <= 2
  {
    var t := Lower(complaintText);
    var c, m, h := ConductScore(complaintText), CompetenceScore(complaintText), HealthScore(complaintText);
    var found := KeywordsFound(complaintText);
    var category := ChooseCategory(c, m, h);
    var confidence := ConfidenceFor(category, WinningScore(category, c, m, h));
    var severity := SeverityOf(t);
    var actions := (if severity == High then [UrgentAction] else []) + [CategoryAction(category)];
    ClassificationResult(
      category, confidence, Reasoning(category, found), Take(found, 5), severity,
      AnyContains(t, AmbiguousPhrases) || confidence < 0.6, actions, None)
  }

  // ---------------------------------------------------------------------------
  // The classifier as the source runs it
  // ---------------------------------------------------------------------------

  /** One keyword loop: count the listed keywords present and append them to `found`. */
  method ScanKeywords(textLower: string, keywords: seq<string>, found: seq<string>)
    returns (score: nat, foundAfter: seq<string>)
    ensures score == Score(textLower, keywords)
    ensures foundAfter == found + Matches(textLower, keywords)
  {
    score, foundAfter := 0, found;
    for i := 0 to |keywords|
      invariant score == |Matches(textLower, keywords[..i])|
      invariant foundAfter == found + Matches(textLower, keywords[..i])
    {
      assert keywords[..i + 1][..i] == keywords[..i];
      if Contains(textLower, keywords[i]) {
        score := score + 1;
        foundAfter := foundAfter + [keywords[i]];
      }
    }
    assert keywords[..|keywords|] == keywords;
  }

  /**
   * The severity loop: walk the levels high, medium, low; a high match sets HIGH
   * and puts the urgent action first, a medium match sets MEDIUM unless HIGH is set.
   */
  method GradeSeverity(textLower: string, actions: seq<string>)
    returns (severity: Severity, actionsAfter: seq<string>)
    ensures severity == SeverityOf(textLower)
    ensures actionsAfter == (if severity == High then [UrgentAction] else []) + actions
  {
    var anyHigh := AnyContains(textLower, HighSeverityKeywords);
    var anyMedium := AnyContains(textLower, MediumSeverityKeywords);
    severity, actionsAfter := Low, actions;
    for i := 0 to |SeverityKeywords|
      invariant severity == (if i >= 1 && anyHigh then High else if i >= 2 && anyMedium then Medium else Low)
      invariant actionsAfter == (if i >= 1 && anyHigh then [UrgentAction] else []) + actions
    {
      var (level, keywords) := SeverityKeywords[i];
      if AnyContains(textLower, keywords) {
        if level == High {
          severity := High;
          actionsAfter := [UrgentAction] + actionsAfter;
        } else if level == Medium && severity != High {
          severity := Medium;
        }
      }
    }
  }

  /** The if/elif chain: category, confidence, reasoning and the one category action. */
  method DecideCategory(conductScore: nat, competenceScore: nat, healthScore: nat,
                        keywordsFound: seq<string>, actions: seq<string>)
    returns (category: Category, confidence: real, reasoning: string, actionsAfter: seq<string>)
    ensures category == ChooseCategory(conductScore, competenceScore, healthScore)
    ensures confidence == ConfidenceFor(category, WinningScore(category, conductScore, competenceScore, healthScore))
    ensures reasoning == Reasoning(category, keywordsFound)
    ensures actionsAfter == actions + [CategoryAction(category)]
  {
    var maxScore := Max3(conductScore, competenceScore, healthScore);
    if maxScore == 0 {
      category := NeedsReview;
      confidence := 0.3;
      reasoning := "No clear indicators found. Requires human review.";
      actionsAfter := actions + ["Manual review required"];
    } else if conductScore > competenceScore && conductScore > healthScore {
      category := Conduct;
      confidence := MinReal(0.9, 0.5 + conductScore as real * 0.1);
      reasoning := "Behavioral/conduct indicators found: " + Join(", ", Take(keywordsFound, 3));
      actionsAfter := actions + ["Review professional standards policy"];
    } else if competenceScore > healthScore {
      category := Competence;
      confidence := MinReal(0.9, 0.5 + competenceScore as real * 0.1);
      reasoning := "Clinical competence concerns identified: " + Join(", ", Take(keywordsFound, 3));
      actionsAfter := actions + ["Clinical review recommended"];
    } else {
      category := Health;
      confidence := MinReal(0.9, 0.5 + healthScore as real * 0.1);
      reasoning := "Health/fitness concerns detected: " + Join(", ", Take(keywordsFound, 3));
      actionsAfter := actions + ["Immediate fitness assessment required"];
    }
  }

  /** `_classify_with_rules`: scores, category chain, severity loop, review flag. */
  method ClassifyWithRules(complaintText: string) returns (r: ClassificationResult)
    ensures r == RuleClassification(complaintText)
  {
    var textLower := Lower(complaintText);
    var keywordsFound: seq<string> := [];
    var suggestedActions: seq<string> := [];

    var conductScore, competenceScore, healthScore;
    conductScore, keywordsFound := ScanKeywords(textLower, ConductKeywords, keywordsFound);
    competenceScore, keywordsFound := ScanKeywords(textLower, CompetenceKeywords, keywordsFound);
    healthScore, keywordsFound := ScanKeywords(textLower, HealthKeywords, keywordsFound);

    var category, confidence, reasoning;
    category, confidence, reasoning, suggestedActions :=
      DecideCategory(conductScore, competenceScore, healthScore, keywordsFound, suggestedActions);
    assert keywordsFound == KeywordsFound(complaintText);

    var severity;
    severity, suggestedActions := GradeSeverity(textLower, suggestedActions);

    var requiresReview := AnyContains(textLower, AmbiguousPhrases) || confidence < 0.6;
    r := ClassificationResult(
      category, confidence, reasoning, Take(keywordsFound, 5), severity,
      requiresReview, suggestedActions, None);
    ghost var expected := RuleClassification(complaintText);
    assert expected.category == category && expected.confidence == confidence;
    assert expected.reasoning == reasoning && expected.keywords == r.keywords;
    assert expected.severity == severity && expected.suggestedActions == suggestedActions;
  }

  // ---------------------------------------------------------------------------
  // Properties of the rule-based classification
  // ---------------------------------------------------------------------------

  lemma KeywordTablesDistinct()
    ensures Distinct(ConductKeywords) && Distinct(CompetenceKeywords) && Distinct(HealthKeywords)
  {
  }

  /**
   * Each score is the number of distinct keywords of its list that occur in the
   * lower-cased text, so it lies between 0 and 8.
   */
  lemma ScoresCountDistinctKeywords(text: string)
    ensures ConductScore(text) == |PresentKeys(Lower(text), ConductKeywords)| <= 8
    ensures CompetenceScore(text) == |PresentKeys(Lower(text), CompetenceKeywords)| <= 8
    ensures HealthScore(text) == |PresentKeys(Lower(text), HealthKeywords)| <= 8
  {
    KeywordTablesDistinct();
    ScoreCountsDistinctKeywords(Lower(text), ConductKeywords);
    ScoreCountsDistinctKeywords(Lower(text), CompetenceKeywords);
    ScoreCountsDistinctKeywords(Lower(text), HealthKeywords);
  }

  /** With no keyword of any list present the complaint goes to manual review at confidence 0.3. */
  lemma NoIndicatorsNeedsReview(text: string)
    ensures var r := RuleClassification(text);
      (r.category == NeedsReview <==>
        ConductScore(text) == 0 && CompetenceScore(text) == 0 && HealthScore(text) == 0) &&
      (r.category == NeedsReview ==>
        r.confidence == 0.3 && "Manual review required" in r.suggestedActions &&
        r.requiresHumanReview && r.keywords == [])
  {
  }

  /**
   * CONDUCT needs a strict lead over both others; otherwise COMPETENCE needs a
   * strict lead over health; every remaining case with some indicator is HEALTH.
   */
  lemma CategoryTieBreak(text: string)
    ensures var r := RuleClassification(text);
      var c, m, h := ConductScore(text), CompetenceScore(text), HealthScore(text);
      (r.category == Conduct <==> c > m && c > h) &&
      (r.category == Competence <==> !(c > m && c > h) && m > h) &&
      (r.category == Health <==> !(c > m && c > h) && m <= h && h > 0) &&
      r.category in {Conduct, Competence, Health, NeedsReview}
  {
  }

  /** Ties between competence and health, and three-way ties, go to HEALTH. */
  lemma TiesGoToHealth(text: string)
    requires CompetenceScore(text) == HealthScore(text) > 0
    requires ConductScore(text) <= HealthScore(text)
    ensures RuleClassification(text).category == Health
  {
  }

  /**
   * The confidence is min(0.9, 0.5 + 0.1 * winning score) for a keyword verdict,
   * so it is one of 0.3, 0.6, 0.7, 0.8, 0.9, and below 0.6 only for NEEDS_REVIEW.
   */
  lemma ConfidenceLevels(text: string)
    ensures var r := RuleClassification(text);
      var w := WinningScore(r.category, ConductScore(text), CompetenceScore(text), HealthScore(text));
      (r.category != NeedsReview ==> w >= 1 && r.confidence == MinReal(0.9, 0.5 + 0.1 * w as real)) &&
      r.confidence in {0.3, 0.6, 0.7, 0.8, 0.9} &&
      (r.confidence < 0.6 <==> r.category == NeedsReview)
  {
    var r := RuleClassification(text);
    var c, m, h := ConductScore(text), CompetenceScore(text), HealthScore(text);
    var w := WinningScore(r.category, c, m, h);
    if r.category != NeedsReview {
      CategoryTieBreak(text);
      assert w >= 1;
      if w >= 4 {
        assert 0.5 + 0.1 * w as real >= 0.9;
      } else {
        assert w == 1 || w == 2 || w == 3;
      }
    }
  }

  /** HIGH iff a high keyword occurs; MEDIUM iff none does but a medium one does; the low list is never consulted. */
  lemma SeverityPrecedence(text: string)
    ensures var r := RuleClassification(text);
      var t := Lower(text);
      (r.severity == High <==> AnyContains(t, HighSeverityKeywords)) &&
      (r.severity == Medium <==> !AnyContains(t, HighSeverityKeywords) && AnyContains(t, MediumSeverityKeywords)) &&
      (r.severity == Low <==> !AnyContains(t, HighSeverityKeywords) && !AnyContains(t, MediumSeverityKeywords))
  {
  }

  /** On HIGH severity the urgent action comes first, before the one category action; otherwise only that action. */
  lemma ActionsFollowSeverity(text: string)
    ensures var r := RuleClassification(text);
      r.suggestedActions ==
        (if r.severity == High then [UrgentAction, CategoryAction(r.category)] else [CategoryAction(r.category)])
  {
  }

  /**
   * Human review is required exactly when an ambiguous phrase occurs or no
   * indicator was found (the only verdict whose confidence is below 0.6).
   */
  lemma ReviewFlag(text: string)
    ensures var r := RuleClassification(text);
      r.requiresHumanReview <==> AnyContains(Lower(text), AmbiguousPhrases) || r.category == NeedsReview
  {
    ConfidenceLevels(text);
  }

  /**
   * `keywords` is the first five of the matches in list order (conduct, then
   * competence, then health); each is a listed keyword occurring in the text.
   * No secondary category is ever set.
   */
  lemma ReportedKeywords(text: string)
    ensures var r := RuleClassification(text);
      r.keywords == KeywordsFound(text)[..if |KeywordsFound(text)| < 5 then |KeywordsFound(text)| else 5] &&
      (forall k :: k in r.keywords ==>
         (k in ConductKeywords || k in CompetenceKeywords || k in HealthKeywords) && Occurs(Lower(text), k)) &&
      r.secondaryCategory == None
  {
    var r := RuleClassification(text);
    forall k | k in r.keywords
      ensures (k in ConductKeywords || k in CompetenceKeywords || k in HealthKeywords) && Occurs(Lower(text), k)
    {
      var i :| 0 <= i < |r.keywords| && r.keywords[i] == k;
      assert k in KeywordsFound(text);
      ContainsIffOccurs(Lower(text), k);
    }
  }

  // ---------------------------------------------------------------------------
  // classify_batch on the rule-based path
  // ---------------------------------------------------------------------------

  /** A complaint dictionary: optional `id`, `text` and expected `category`. */
  datatype Complaint = Complaint(id: Option<string>, text: Option<string>, category: Option<string>)

  /** The `classification` part of a result record. */
  datatype Classification = Classification(
    primaryCategory: Category,
    secondaryCategory: Option<Category>,
    confidence: real,
    severity: Severity,
    requiresReview: bool)

  /** The `analysis` part of a result record (without `processing_time`). */
  datatype Analysis = Analysis(reasoning: string, keywords: seq<string>, suggestedActions: seq<string>)

  /** A result record: a classification, or the error record of a failed complaint. */
  datatype ResultRecord =
    | Classified(complaintId: string, originalText: string, classification: Classification,
                 analysis: Analysis, actualCategory: Option<string>)
    | Failed(complaintId: string, error: string)

  /** The character of decimal digit `d`. */
  function DigitChar(d: nat): (c: char)
    requires d < 10
    ensures '0' <= c <= '9'
  {
    ('0' as int + d) as char
  }

  /** The number a string of decimal digits denotes (most significant first). */
  function DigitsValue(s: string): nat
  {
    if s == [] then 0
    else
      var c := s[|s| - 1];
      DigitsValue(s[..|s| - 1]) * 10 + (if '0' <= c <= '9' then c as int - '0' as int else 0)
  }

  /** `str(n)`: the decimal digits of `n`. */
  function Decimal(n: nat): (s: string)
    ensures |s| > 0
  {
    if n < 10 then [DigitChar(n)] else Decimal(n / 10) + [DigitChar(n % 10)]
  }

  /** `str(n)` consists of decimal digits, has no leading zero, and denotes `n`. */
  lemma {:induction false} DecimalDenotes(n: nat)
    ensures forall i :: 0 <= i < |Decimal(n)| ==> '0' <= Decimal(n)[i] <= '9'
    ensures |Decimal(n)| > 1 ==> Decimal(n)[0] != '0'
    ensures DigitsValue(Decimal(n)) == n
  {
    if n >= 10 {
      var prefix := Decimal(n / 10);
      DecimalDenotes(n / 10);
      assert Decimal(n) == prefix + [DigitChar(n % 10)];
      assert Decimal(n)[..|prefix|] == prefix;
    }
  }

  /** Leading zeros do not change the value of a digit string. */
  lemma {:induction false} LeadingZerosValue(zeros: string, s: string)
    requires forall i :: 0 <= i < |zeros| ==> zeros[i] == '0'
    ensures DigitsValue(zeros + s) == DigitsValue(s)
    decreases |zeros| + |s|
  {
    if s == [] {
      assert zeros + s == zeros;
      if zeros != [] {
        LeadingZerosValue(zeros[..|zeros| - 1], []);
        assert zeros[..|zeros| - 1] + [] == zeros[..|zeros| - 1];
      }
    } else {
      assert (zeros + s)[..|zeros + s| - 1] == zeros + s[..|s| - 1];
      LeadingZerosValue(zeros, s[..|s| - 1]);
    }
  }

  /** `f'{n:04d}'`: the decimal digits of `n`, left-padded with zeros to four characters. */
  function PaddedIndex(n: nat): (s: string)
    ensures |s| >= 4
  {
    var digits := Decimal(n);
    if |digits| >= 4 then digits else seq(4 - |digits|, _ => '0') + digits
  }

  /**
   * `f'{n:04d}'` is at least four decimal digits denoting `n`, and pads only
   * when `n` has fewer than four digits.
   */
  lemma PaddedIndexDenotes(n: nat)
    ensures forall i :: 0 <= i < |PaddedIndex(n)| ==> '0' <= PaddedIndex(n)[i] <= '9'
    ensures DigitsValue(PaddedIndex(n)) == n
    ensures |PaddedIndex(n)| > 4 ==> PaddedIndex(n)[0] != '0'
  {
    var digits := Decimal(n);
    DecimalDenotes(n);
    if |digits| < 4 {
      LeadingZerosValue(seq(4 - |digits|, _ => '0'), digits);
    }
  }

  /** Complaints at different positions get different default ids. */
  lemma DefaultIdsDistinct(i: nat, j: nat)
    requires i != j
    ensures "COMPLAINT_" + PaddedIndex(i) != "COMPLAINT_" + PaddedIndex(j)
  {
    var a, b := "COMPLAINT_" + PaddedIndex(i), "COMPLAINT_" + PaddedIndex(j);
    PaddedIndexDenotes(i);
    PaddedIndexDenotes(j);
    assert a[10..] == PaddedIndex(i) && b[10..] == PaddedIndex(j);
  }

  /** The record built for the complaint at position `idx`. */
  function BatchRecord(idx: nat, complaint: Complaint): ResultRecord
  {
    var id := complaint.id.GetOr("COMPLAINT_" + PaddedIndex(idx));
    var text := complaint.text.GetOr("");
    var r := RuleClassification(text);
    Classified(
      id, text,
      Classification(r.category, r.secondaryCategory, r.confidence, r.severity, r.requiresHumanReview),
      Analysis(r.reasoning, r.keywords, r.suggestedActions),
      complaint.category)
  }

  /** The loop body of `classify_batch`: default the id and text, classify, and build the record. */
  method ClassifyComplaint(idx: nat, complaint: Complaint) returns (record: ResultRecord)
    ensures record == BatchRecord(idx, complaint)
  {
    var complaintId := complaint.id.GetOr("COMPLAINT_" + PaddedIndex(idx));
    var complaintText := complaint.text.GetOr("");
    var result := ClassifyWithRules(complaintText);
    record := Classified(
      complaintId, complaintText,
      Classification(result.category, result.secondaryCategory, result.confidence,
                     result.severity, result.requiresHumanReview),
      Analysis(result.reasoning, result.keywords, result.suggestedActions),
      complaint.category);
  }

  /** `[f(i, x) for i, x in enumerate(xs)]`. */
  function MapIndexed<A, B>(xs: seq<A>, f: (nat, A) -> B): (ys: seq<B>)
    ensures |ys| == |xs|
    ensures forall i :: 0 <= i < |xs| ==> ys[i] == f(i, xs[i])
  {
    if xs == [] then [] else MapIndexed(xs[..|xs| - 1], f) + [f(|xs| - 1, xs[|xs| - 1])]
  }

  /**
   * `classify_batch` with no AI client: one classified record per complaint, in
   * order, the record of complaint `i` being `BatchRecord(i, complaints[i])`.
   */
  method ClassifyBatch(complaints: seq<Complaint>) returns (results: seq<ResultRecord>)
    ensures results == MapIndexed(complaints, BatchRecord)
  {
    results := [];
    for idx := 0 to |complaints|
      invariant results == MapIndexed(complaints[..idx], BatchRecord)
    {
      var record := ClassifyComplaint(idx, complaints[idx]);
      assert complaints[..idx + 1][..idx] == complaints[..idx];
      results := results + [record];
    }
    assert complaints[..|complaints|] == complaints;
  }

  /** No non-empty keyword occurs in an empty text. */
  lemma EmptyTextScoresZero(t: string, keys: seq<string>)
    requires |t| == 0
    requires forall k :: k in keys ==> |k| > 0
    ensures Score(t, keys) == 0
  {
    if |Matches(t, keys)| > 0 {
      assert Matches(t, keys)[0] in keys;
    }
  }

  /** The empty text scores zero on every list. */
  lemma EmptyTextScores(text: string)
    requires |text| == 0
    ensures ConductScore(text) == 0 && CompetenceScore(text) == 0 && HealthScore(text) == 0
  {
    EmptyTextScoresZero(Lower(text), ConductKeywords);
    EmptyTextScoresZero(Lower(text), CompetenceKeywords);
    EmptyTextScoresZero(Lower(text), HealthKeywords);
  }

  /** A complaint without text is sent to manual review. */
  lemma EmptyTextNeedsReview(text: string)
    requires |text| == 0
    ensures RuleClassification(text).category == NeedsReview
  {
    EmptyTextScores(text);
  }

  /**
   * Every batch record is a classification; it keeps the given id or gets the
   * default id `COMPLAINT_` followed by the padded index, and carries an actual category exactly when the
   * complaint had one. A complaint without text goes to manual review.
   */
  lemma BatchRecordShape(idx: nat, complaint: Complaint)
    ensures var rec := BatchRecord(idx, complaint);
      rec.Classified? &&
      (complaint.id.Some? ==> rec.complaintId == complaint.id.value) &&
      (complaint.id.None? ==> rec.complaintId == "COMPLAINT_" + PaddedIndex(idx)) &&
      rec.originalText == complaint.text.GetOr("") &&
      rec.actualCategory == complaint.category &&
      (rec.actualCategory.Some? <==> complaint.category.Some?) &&
      (var r := RuleClassification(complaint.text.GetOr(""));
       rec.classification == Classification(r.category, r.secondaryCategory, r.confidence, r.severity, r.requiresHumanReview) &&
       rec.analysis == Analysis(r.reasoning, r.keywords, r.suggestedActions)) &&
      (complaint.text.None? ==> rec.classification.primaryCategory == NeedsReview)
  {
    if complaint.text.None? {
      EmptyTextNeedsReview(complaint.text.GetOr(""));
    }
  }
}

=== FILE: preprocessor.dfy ===
/**
 * `MedicalComplaintPreprocessor`: cleaning complaint text, extracting keyword
 * features from it, and the rule-based baseline prediction over those features.
 */
module Preprocessor {
  import opened Categories
  import opened Text

  // ---------------------------------------------------------------------------
  // Indicator tables
  // ---------------------------------------------------------------------------

  const ConductIndicators: seq<string> := [
    "unprofessional", "inappropriate", "boundary", "ethics",
    "misconduct", "behavior", "attitude", "communication",
    "disrespectful", "harassment", "discrimination", "rude",
    "dismissive", "hostile", "aggressive"]

  const CompetenceIndicators: seq<string> := [
    "misdiagnosis", "error", "mistake", "incorrect", "failed",
    "negligent", "competency", "skill", "knowledge", "treatment",
    "procedure", "assessment", "clinical", "wrong", "incompetent",
    "malpractice", "oversight"]

  const HealthIndicators: seq<string> := [
    "impaired", "addiction", "mental health", "substance",
    "alcohol", "fitness", "illness", "condition", "wellbeing",
    "psychological", "psychiatric", "tired", "exhausted",
    "unstable", "intoxicated"]

  const SeverityHighTerms: seq<string> := ["death", "serious", "critical", "emergency", "urgent"]
  const SeverityMediumTerms: seq<string> := ["concerning", "repeated", "multiple", "pattern"]
  const SeverityLowTerms: seq<string> := ["minor", "slight", "small"]

  const TemporalTerms: seq<string> := ["repeatedly", "again", "multiple times", "pattern", "twice", "several"]
  const ProgressionTerms: seq<string> := ["initially", "but then", "at first", "later", "eventually"]
  const UrgencyTerms: seq<string> := ["urgent", "emergency", "immediate", "asap"]
  const EmotionalTerms: seq<string> := ["angry", "upset", "frustrated", "worried", "scared", "anxious"]

  /** No table lists a term twice, so every score counts distinct terms. */
  lemma IndicatorTablesDistinct()
    ensures Distinct(ConductIndicators) && Distinct(CompetenceIndicators) && Distinct(HealthIndicators)
    ensures Distinct(SeverityHighTerms) && Distinct(SeverityMediumTerms) && Distinct(SeverityLowTerms)
    ensures Distinct(TemporalTerms) && Distinct(ProgressionTerms) && Distinct(UrgencyTerms)
    ensures Distinct(EmotionalTerms)
  {
  }

  // ---------------------------------------------------------------------------
  // clean_text
  // ---------------------------------------------------------------------------

  /**
   * `clean_text`: empty input gives the empty string; otherwise the text is
   * anonymised (the regular-expression substitutions, given here as the
   * parameter `anonymize`) and its whitespace normalised.
   */
  function CleanText(text: string, anonymize: string -> string): (r: string)
    ensures text == [] ==> r == []
    ensures text != [] ==> Words(r) == Words(anonymize(text))
    ensures Normalized(r)
    ensures forall i :: 0 <= i < |r| - 1 ==> !(IsSpace(r[i]) && IsSpace(r[i + 1]))
  {
    if text == [] then ""
    else
      NormalizeWhitespaceProperties(anonymize(text));
      NormalizeWhitespace(anonymize(text))
  }

  /** Normalising the whitespace of cleaned text again changes nothing. */
  lemma CleanTextNormalizationIdempotent(text: string, anonymize: string -> string)
    ensures NormalizeWhitespace(CleanText(text, anonymize)) == CleanText(text, anonymize)
  {
    if text != [] {
      NormalizeWhitespaceProperties(anonymize(text));
    }
  }

  // ---------------------------------------------------------------------------
  // Lower-casing keeps the words
  // ---------------------------------------------------------------------------

  lemma LowerSuffix(s: string, n: nat)
    requires n <= |s|
    ensures Lower(s)[n..] == Lower(s[n..])
  {
  }

  lemma {:induction false} LeadingWordLengthOfLower(s: string)
    ensures LeadingWordLength(Lower(s)) == LeadingWordLength(s)
    decreases |s|
  {
    if s != [] && !IsSpace(s[0]) {
      LowerSuffix(s, 1);
      LeadingWordLengthOfLower(s[1..]);
    }
  }

  /** Lower-casing neither joins nor splits words: `text.lower().split()` has as many words as `text.split()`. */
  lemma {:induction false} LowerKeepsWordCount(s: string)
    ensures |Words(Lower(s))| == |Words(s)|
    decreases |s|
  {
    if s == [] {
    } else if IsSpace(s[0]) {
      LowerSuffix(s, 1);
      LowerKeepsWordCount(s[1..]);
    } else {
      var n := LeadingWordLength(s);
      LeadingWordLengthOfLower(s);
      LowerSuffix(s, n);
      LowerKeepsWordCount(s[n..]);
    }
  }

  // ---------------------------------------------------------------------------
  // extract_features
  // ---------------------------------------------------------------------------

  /**
   * The features dictionary. The ratio and severity keys are written after
   * the dictionary is built; until then they hold 0.0 and Low.
   */
  datatype Features = Features(
    textLength: nat,
    conductScore: nat,
    competenceScore: nat,
    healthScore: nat,
    severityHighCount: nat,
    severityMediumCount: nat,
    severityLowCount: nat,
    hasTemporalPattern: nat,
    hasProgression: nat,
    isUrgent: nat,
    emotionalWords: nat,
    conductRatio: real,
    competenceRatio: real,
    healthRatio: real,
    estimatedSeverity: Severity)

  /** `int(b)` for a boolean. */
  function Flag(b: bool): (n: nat)
    ensures n <= 1
    ensures n == 1 <==> b
  {
    if b then 1 else 0
  }

  function TotalScore(f: Features): nat
  {
    f.conductScore + f.competenceScore + f.healthScore
  }

  /** Each ratio is its score's share of the total, or all ratios are 0 when the total is 0. */
  predicate RatiosFollowScores(f: Features): (b: bool)
    ensures b && TotalScore(f) > 0 ==> f.conductRatio + f.competenceRatio + f.healthRatio == 1.0
    ensures b && TotalScore(f) == 0 ==> f.conductRatio + f.competenceRatio + f.healthRatio == 0.0
  {
    var total := TotalScore(f);
    if total > 0 then
      SharesSumToOne(f.conductScore, f.competenceScore, f.healthScore);
      f.conductRatio == f.conductScore as real / total as real &&
      f.competenceRatio == f.competenceScore as real / total as real &&
      f.healthRatio == f.healthScore as real / total as real
    else
      f.conductRatio == 0.0 && f.competenceRatio == 0.0 && f.healthRatio == 0.0
  }

  /** Shares of a positive total add up to one. */
  lemma SharesSumToOne(a: nat, b: nat, c: nat)
    requires a + b + c > 0
    ensures var t := (a + b + c) as real;
      a as real / t + b as real / t + c as real / t == 1.0
  {
    var t := (a + b + c) as real;
    assert a as real / t + b as real / t + c as real / t == (a + b + c) as real / t;
  }

  /** `clean_text(text).lower()`, the text the features are read from. */
  function Cleaned(text: string, anonymize: string -> string): (r: string)
    ensures text == [] ==> r == []
    ensures |Words(r)| == |Words(CleanText(text, anonymize))|
  {
    LowerKeepsWordCount(CleanText(text, anonymize));
    Lower(CleanText(text, anonymize))
  }

  /**
   * `extract_features`: the scores count the listed terms occurring in the
   * cleaned, lower-cased text; the flags record whether any pattern,
   * progression or urgency term occurs; the ratios are shares of the total
   * score; the severity is HIGH on a high term, else MEDIUM on a medium term
   * or a temporal pattern, else LOW.
   */
  method ExtractFeatures(text: string, anonymize: string -> string) returns (f: Features)
    ensures f.textLength == |Words(CleanText(text, anonymize))|
    ensures text != [] ==> f.textLength == |Words(anonymize(text))|
    ensures f.conductScore == Score(Cleaned(text, anonymize), ConductIndicators)
    ensures f.competenceScore == Score(Cleaned(text, anonymize), CompetenceIndicators)
    ensures f.healthScore == Score(Cleaned(text, anonymize), HealthIndicators)
    ensures f.severityHighCount == Score(Cleaned(text, anonymize), SeverityHighTerms)
    ensures f.severityMediumCount == Score(Cleaned(text, anonymize), SeverityMediumTerms)
    ensures f.severityLowCount == Score(Cleaned(text, anonymize), SeverityLowTerms)
    ensures f.emotionalWords == Score(Cleaned(text, anonymize), EmotionalTerms)
    ensures f.conductScore <= 15 && f.competenceScore <= 17 && f.healthScore <= 15
    ensures f.severityHighCount <= 5 && f.severityMediumCount <= 4 && f.severityLowCount <= 3
    ensures f.emotionalWords <= 6
    ensures f.hasTemporalPattern <= 1 && f.hasProgression <= 1 && f.isUrgent <= 1
    ensures f.hasTemporalPattern == 1 <==> AnyContains(Cleaned(text, anonymize), TemporalTerms)
    ensures f.hasProgression == 1 <==> AnyContains(Cleaned(text, anonymize), ProgressionTerms)
    ensures f.isUrgent == 1 <==> AnyContains(Cleaned(text, anonymize), UrgencyTerms)
    ensures RatiosFollowScores(f)
    ensures TotalScore(f) > 0 ==> f.conductRatio + f.competenceRatio + f.healthRatio == 1.0
    ensures f.estimatedSeverity == High <==> AnyContains(Cleaned(text, anonymize), SeverityHighTerms)
    ensures f.estimatedSeverity == Medium <==>
      !AnyContains(Cleaned(text, anonymize), SeverityHighTerms) &&
      (AnyContains(Cleaned(text, anonymize), SeverityMediumTerms) || AnyContains(Cleaned(text, anonymize), TemporalTerms))
    ensures f.estimatedSeverity == High <==> f.severityHighCount > 0
    ensures f.estimatedSeverity == Medium <==>
      f.severityHighCount == 0 && (f.severityMediumCount > 0 || f.hasTemporalPattern != 0)
  {
    var cleaned := Cleaned(text, anonymize);
    var words := Words(cleaned);
    LowerKeepsWordCount(CleanText(text, anonymize));

    f := Features(
      |words|,
      Score(cleaned, ConductIndicators),
      Score(cleaned, CompetenceIndicators),
      Score(cleaned, HealthIndicators),
      Score(cleaned, SeverityHighTerms),
      Score(cleaned, SeverityMediumTerms),
      Score(cleaned, SeverityLowTerms),
      Flag(AnyContains(cleaned, TemporalTerms)),
      Flag(AnyContains(cleaned, ProgressionTerms)),
      Flag(AnyContains(cleaned, UrgencyTerms)),
      Score(cleaned, EmotionalTerms),
      0.0, 0.0, 0.0, Low);

    f := AssignRatios(f);
    AnyContainsIffScore(cleaned, SeverityHighTerms);
    AnyContainsIffScore(cleaned, SeverityMediumTerms);
    f := AssignSeverity(f);
  }

  /** Writes each category's share of the total score, or 0 for all three when nothing scored. */
  method AssignRatios(f: Features) returns (g: Features)
    ensures RatiosFollowScores(g)
    ensures TotalScore(g) > 0 ==> g.conductRatio + g.competenceRatio + g.healthRatio == 1.0
    ensures g == f.(conductRatio := g.conductRatio, competenceRatio := g.competenceRatio, healthRatio := g.healthRatio)
  {
    g := f;
    var total := g.conductScore + g.competenceScore + g.healthScore;
    if total > 0 {
      g := g.(conductRatio := g.conductScore as real / total as real);
      g := g.(competenceRatio := g.competenceScore as real / total as real);
      g := g.(healthRatio := g.healthScore as real / total as real);
      SharesSumToOne(g.conductScore, g.competenceScore, g.healthScore);
    } else {
      g := g.(conductRatio := 0.0, competenceRatio := 0.0, healthRatio := 0.0);
    }
  }

  /** Writes the estimated severity: HIGH on a high term, else MEDIUM on a medium term or a temporal pattern, else LOW. */
  method AssignSeverity(f: Features) returns (g: Features)
    ensures g.estimatedSeverity == High <==> f.severityHighCount > 0
    ensures g.estimatedSeverity == Medium <==>
      f.severityHighCount == 0 && (f.severityMediumCount > 0 || f.hasTemporalPattern != 0)
    ensures g == f.(estimatedSeverity := g.estimatedSeverity)
    ensures RatiosFollowScores(f) ==> RatiosFollowScores(g)
  {
    if f.severityHighCount > 0 {
      g := f.(estimatedSeverity := High);
    } else if f.severityMediumCount > 0 || f.hasTemporalPattern != 0 {
      g := f.(estimatedSeverity := Medium);
    } else {
      g := f.(estimatedSeverity := Low);
    }
  }

  // ---------------------------------------------------------------------------
  // _predict_category
  // ---------------------------------------------------------------------------

  function Max3(a: real, b: real, c: real): (m: real)
    ensures m >= a && m >= b && m >= c
    ensures m == a || m == b || m == c
  {
    if a >= b && a >= c then a else if b >= c then b else c
  }

  /**
   * `max(ratios, key=ratios.get)` over CONDUCT, COMPETENCE, HEALTH in that
   * order: a later category wins only with a strictly larger ratio.
   */
  function Argmax(conduct: real, competence: real, health: real): (c: Category)
    ensures c == Conduct <==> conduct >= competence && conduct >= health
    ensures c == Competence <==> competence > conduct && competence >= health
    ensures c == Health <==> health > conduct && health > competence
  {
    var (best, bestRatio) := if competence > conduct then (Competence, competence) else (Conduct, conduct);
    if health > bestRatio then Health else best
  }

  /** `_predict_category`: an ordered decision list over the features. */
  function PredictCategory(f: Features): (c: Category)
    ensures c != Unknown
    ensures f.healthRatio > 0.4 && f.estimatedSeverity == High ==> c == Health
  {
    if f.healthRatio > 0.4 && f.estimatedSeverity == High then Health
    else if Max3(f.conductRatio, f.competenceRatio, f.healthRatio) < 0.3 then NeedsReview
    else if f.hasTemporalPattern != 0 && f.hasProgression != 0 then Monitoring
    else Argmax(f.conductRatio, f.competenceRatio, f.healthRatio)
  }

  /** The health override in scores: health holds more than two fifths of the total. */
  predicate HealthOverride(f: Features): (b: bool)
    ensures b ==> f.healthScore > 0 && f.estimatedSeverity == High
  {
    5 * f.healthScore > 2 * TotalScore(f) && f.estimatedSeverity == High
  }

  /** Multiplying by a positive number keeps the order. */
  lemma MulMonotone(a: real, b: real, t: real)
    requires t > 0.0
    ensures a > b <==> a * t > b * t
  {
    if a > b {
      assert (a - b) * t > 0.0;
    }
    if a * t > b * t {
      assert (a - b) * t > 0.0;
    }
  }

  lemma ShareTimesTotal(s: nat, t: nat)
    requires 0 < t
    ensures (s as real / t as real) * t as real == s as real
  {
  }

  /** `ratio > 0.4` is `5 * score > 2 * total` for a share of a positive total. */
  lemma ShareAboveTwoFifths(s: nat, t: nat)
    requires 0 < t
    ensures s as real / t as real > 0.4 <==> 5 * s > 2 * t
  {
    ShareTimesTotal(s, t);
    MulMonotone(s as real / t as real, 0.4, t as real);
  }

  /** Shares of one positive total compare like the scores. */
  lemma SharesCompare(a: nat, b: nat, t: nat)
    requires 0 < t
    ensures a as real / t as real > b as real / t as real <==> a > b
  {
    ShareTimesTotal(a, t);
    ShareTimesTotal(b, t);
    MulMonotone(a as real / t as real, b as real / t as real, t as real);
  }

  /** The health override fires exactly when health holds over two fifths of the score and a high term occurs. */
  lemma {:induction false} OverrideInScores(f: Features)
    requires RatiosFollowScores(f)
    ensures (f.healthRatio > 0.4 && f.estimatedSeverity == High) <==> HealthOverride(f)
  {
    if TotalScore(f) > 0 {
      ShareAboveTwoFifths(f.healthScore, TotalScore(f));
    }
  }

  /** With some indicator the largest ratio is at least a third, so never below 0.3. */
  lemma LargestShareAboveThreeTenths(f: Features)
    requires RatiosFollowScores(f) && TotalScore(f) > 0
    ensures Max3(f.conductRatio, f.competenceRatio, f.healthRatio) > 0.3
  {
    SharesSumToOne(f.conductScore, f.competenceScore, f.healthScore);
  }

  /**
   * Without the override, the prediction is NEEDS_REVIEW exactly when no
   * indicator occurs.
   */
  lemma NeedsReviewIffNoIndicator(f: Features)
    requires RatiosFollowScores(f)
    requires !HealthOverride(f)
    ensures PredictCategory(f) == NeedsReview <==> TotalScore(f) == 0
  {
    OverrideInScores(f);
    if TotalScore(f) > 0 {
      LargestShareAboveThreeTenths(f);
    }
  }

  /** With some indicator, no override, and both a temporal pattern and a progression, the prediction is MONITORING. */
  lemma PatternWithProgressionMonitors(f: Features)
    requires RatiosFollowScores(f)
    requires !HealthOverride(f) && TotalScore(f) > 0
    requires f.hasTemporalPattern != 0 && f.hasProgression != 0
    ensures PredictCategory(f) == Monitoring
  {
    OverrideInScores(f);
    LargestShareAboveThreeTenths(f);
  }

  /**
   * Otherwise the prediction is the category with the highest score, ties
   * going to CONDUCT, then COMPETENCE.
   */
  lemma {:induction false} HighestScoreWins(f: Features)
    requires RatiosFollowScores(f)
    requires !HealthOverride(f) && TotalScore(f) > 0
    requires !(f.hasTemporalPattern != 0 && f.hasProgression != 0)
    ensures var c, m, h := f.conductScore, f.competenceScore, f.healthScore;
      && (PredictCategory(f) == Conduct <==> c >= m && c >= h)
      && (PredictCategory(f) == Competence <==> m > c && m >= h)
      && (PredictCategory(f) == Health <==> h > c && h > m)
  {
    OverrideInScores(f);
    LargestShareAboveThreeTenths(f);
    var t := TotalScore(f);
    var c, m, h := f.conductScore, f.competenceScore, f.healthScore;
    var rc, rm, rh := f.conductRatio, f.competenceRatio, f.healthRatio;
    assert PredictCategory(f) == Argmax(rc, rm, rh);
    assert rc > rm <==> c > m by { SharesCompare(c, m, t); }
    assert rm > rc <==> m > c by { SharesCompare(m, c, t); }
    assert rc > rh <==> c > h by { SharesCompare(c, h, t); }
    assert rh > rc <==> h > c by { SharesCompare(h, c, t); }
    assert rm > rh <==> m > h by { SharesCompare(m, h, t); }
    assert rh > rm <==> h > m by { SharesCompare(h, m, t); }
  }
}

=== FILE: text.dfy ===
/**
 * The Python string operations both triage engines rely on: ASCII lower-casing,
 * the substring test `keyword in text`, counting which keywords of a list occur,
 * and `' '.join(text.split())`.
 */
module Text {

  // ---------------------------------------------------------------------------
  // Lower-casing and substring search
  // ---------------------------------------------------------------------------

  function LowerChar(c: char): char
  {
    if 'A' <= c <= 'Z' then (c as int + 32) as char else c
  }

  /** `str.lower()` restricted to ASCII letters. */
  function Lower(s: string): (r: string)
    ensures |r| == |s|
    ensures forall i :: 0 <= i < |r| ==> !('A' <= r[i] <= 'Z')
    ensures forall i :: 0 <= i < |s| && !('A' <= s[i] <= 'Z') ==> r[i] == s[i]
    ensures forall i :: 0 <= i < |s| && 'A' <= s[i] <= 'Z' ==> r[i] == (s[i] as int + 32) as char
  {
    seq(|s|, i requires 0 <= i < |s| => LowerChar(s[i]))
  }

  /** The window of `t` starting at `i` equals `k`. */
  predicate OccursAt(t: string, k: string, i: nat)
  {
    i + |k| <= |t| && t[i..i + |k|] == k
  }

  /** `k in t` for strings: some window of `t` equals `k`. */
  ghost predicate Occurs(t: string, k: string)
  {
    exists i: nat :: OccursAt(t, k, i)
  }

  /** The executable substring test: try every start position from the left. */
  predicate Contains(t: string, k: string)
    decreases |t|
  {
    if |t| < |k| then false
    else if t[..|k|] == k then true
    else |t| > 0 && Contains(t[1..], k)
  }

  /** The scan finds `k` exactly when `k` occurs at some position of `t`. */
  lemma {:induction false} ContainsIffOccurs(t: string, k: string)
    ensures Contains(t, k) <==> Occurs(t, k)
    decreases |t|
  {
    if |t| < |k| {
    } else if t[..|k|] == k {
      assert OccursAt(t, k, 0);
    } else {
      assert |t| > 0;
      ContainsIffOccurs(t[1..], k);
      if Occurs(t, k) {
        var i: nat :| OccursAt(t, k, i);
        assert i != 0;
        assert t[1..][i - 1..i - 1 + |k|] == t[i..i + |k|];
        assert OccursAt(t[1..], k, i - 1);
      }
      if Occurs(t[1..], k) {
        var i: nat :| OccursAt(t[1..], k, i);
        assert t[i + 1..i + 1 + |k|] == t[1..][i..i + |k|];
        assert OccursAt(t, k, i + 1);
      }
    }
  }

  // ---------------------------------------------------------------------------
  // Keyword lists
  // ---------------------------------------------------------------------------

  predicate Distinct(keys: seq<string>)
  {
    forall i, j :: 0 <= i < j < |keys| ==> keys[i] != keys[j]
  }

  /** The keywords of `keys` that occur in `t`, in list order (each at most once). */
  function Matches(t: string, keys: seq<string>): (m: seq<string>)
    ensures |m| <= |keys|
    ensures forall k :: k in m <==> k in keys && Contains(t, k)
  {
    if keys == [] then []
    else
      var last := keys[|keys| - 1];
      Matches(t, keys[..|keys| - 1]) + (if Contains(t, last) then [last] else [])
  }

  /** `sum(1 for term in keys if term in t)`. */
  function Score(t: string, keys: seq<string>): (n: nat)
    ensures n <= |keys|
  {
    |Matches(t, keys)|
  }

  /** `any(term in t for term in keys)`. */
  predicate AnyContains(t: string, keys: seq<string>)
  {
    exists i :: 0 <= i < |keys| && Contains(t, keys[i])
  }

  /** The set of listed keywords that occur in `t`. */
  ghost function PresentKeys(t: string, keys: seq<string>): set<string>
  {
    set k | k in keys && Contains(t, k)
  }

  /**
   * For a list without repeats, the score is the number of distinct listed
   * keywords occurring in the text: repeated occurrences in the text count once,
   * and the score never exceeds the list length.
   */
  lemma {:induction false} ScoreCountsDistinctKeywords(t: string, keys: seq<string>)
    requires Distinct(keys)
    ensures Score(t, keys) == |PresentKeys(t, keys)|
    ensures Score(t, keys) <= |keys|
  {
    if keys != [] {
      var init, last := keys[..|keys| - 1], keys[|keys| - 1];
      assert Distinct(init);
      ScoreCountsDistinctKeywords(t, init);
      assert keys == init + [last];
      assert Matches(t, keys) == Matches(t, init) + (if Contains(t, last) then [last] else []);
      var before, after := PresentKeys(t, init), PresentKeys(t, keys);
      assert last !in init;
      assert last !in before;
      if Contains(t, last) {
        assert after == before + {last};
      } else {
        assert after == before;
      }
    }
  }

  /** Some keyword occurs exactly when the score is positive. */
  lemma AnyContainsIffScore(t: string, keys: seq<string>)
    ensures AnyContains(t, keys) <==> Score(t, keys) > 0
  {
    if AnyContains(t, keys) {
      var i :| 0 <= i < |keys| && Contains(t, keys[i]);
      assert keys[i] in Matches(t, keys);
    }
    if Score(t, keys) > 0 {
      var k := Matches(t, keys)[0];
      assert k in keys && Contains(t, k);
      var i :| 0 <= i < |keys| && keys[i] == k;
    }
  }

  /** The first `n` elements (Python's `xs[:n]`). */
  function Take(xs: seq<string>, n: nat): (r: seq<string>)
    ensures |r| == if |xs| <= n then |xs| else n
    ensures r <= xs
  {
    if |xs| <= n then xs else xs[..n]
  }

  /** `sep.join(words)`. */
  function Join(sep: string, words: seq<string>): string
  {
    if words == [] then ""
    else if |words| == 1 then words[0]
    else words[0] + sep + Join(sep, words[1..])
  }

  // ---------------------------------------------------------------------------
  // Whitespace normalisation: ' '.join(text.split())
  // ---------------------------------------------------------------------------

  /** The characters for which Python's `str.isspace()` holds; `str.split()` splits on them. */
  predicate IsSpace(c: char)
  {
    c == ' ' || '\t' <= c <= '\r' || '\U{1c}' <= c <= '\U{1f}' ||
    c == '\U{85}' || c == '\U{a0}' || c == '\U{1680}' || '\U{2000}' <= c <= '\U{200a}' ||
    c == '\U{2028}' || c == '\U{2029}' || c == '\U{202f}' || c == '\U{205f}' || c == '\U{3000}'
  }

  /** A piece `str.split()` can return: non-empty, without whitespace. */
  predicate IsWord(w: string)
  {
    |w| > 0 && forall i :: 0 <= i < |w| ==> !IsSpace(w[i])
  }

  /** Length of the run of non-whitespace characters that starts `s`. */
  function LeadingWordLength(s: string): (n: nat)
    ensures n <= |s|
    ensures forall i :: 0 <= i < n ==> !IsSpace(s[i])
    ensures n == |s| || IsSpace(s[n])
  {
    if s == [] || IsSpace(s[0]) then 0 else 1 + LeadingWordLength(s[1..])
  }

  /** `s.split()`: the maximal runs of non-whitespace characters, left to right. */
  function Words(s: string): (ws: seq<string>)
    ensures forall w :: w in ws ==> IsWord(w)
    decreases |s|
  {
    if s == [] then []
    else if IsSpace(s[0]) then Words(s[1..])
    else
      var n := LeadingWordLength(s);
      [s[..n]] + Words(s[n..])
  }

  /** `' '.join(s.split())`. */
  function NormalizeWhitespace(s: string): string
  {
    Join(" ", Words(s))
  }

  /** No leading or trailing whitespace, and every whitespace character is a single space between two non-space characters. */
  predicate Normalized(r: string)
  {
    (|r| > 0 ==> !IsSpace(r[0]) && !IsSpace(r[|r| - 1])) &&
    forall i :: 0 <= i < |r| && IsSpace(r[i]) ==>
      r[i] == ' ' && 0 < i < |r| - 1 && !IsSpace(r[i - 1]) && !IsSpace(r[i + 1])
  }

  lemma {:induction false} LeadingWordOfWord(w: string, rest: string)
    requires forall i :: 0 <= i < |w| ==> !IsSpace(w[i])
    requires rest == [] || IsSpace(rest[0])
    ensures LeadingWordLength(w + rest) == |w|
  {
    if w != [] {
      assert (w + rest)[1..] == w[1..] + rest;
      LeadingWordOfWord(w[1..], rest);
    } else {
      assert w + rest == rest;
    }
  }

  /** Splitting a word followed by whitespace (or nothing) yields that word first. */
  lemma WordsOfWordThen(w: string, rest: string)
    requires IsWord(w)
    requires rest == [] || IsSpace(rest[0])
    ensures Words(w + rest) == [w] + Words(rest)
  {
    var s := w + rest;
    LeadingWordOfWord(w, rest);
    assert s[..|w|] == w;
    assert s[|w|..] == rest;
  }

  /** Splitting undoes joining with single spaces: `' '.join(ws).split() == ws` for words `ws`. */
  lemma {:induction false} WordsOfJoin(ws: seq<string>)
    requires forall w :: w in ws ==> IsWord(w)
    ensures Words(Join(" ", ws)) == ws
  {
    if ws == [] {
    } else if |ws| == 1 {
      assert ws[0] + [] == ws[0];
      WordsOfWordThen(ws[0], []);
    } else {
      var rest := Join(" ", ws[1..]);
      WordsOfJoin(ws[1..]);
      assert ws[0] + " " + rest == ws[0] + (" " + rest);
      WordsOfWordThen(ws[0], " " + rest);
      assert (" " + rest)[1..] == rest;
    }
  }

  /** Joining words with single spaces gives a normalised string. */
  lemma {:induction false} JoinNormalized(ws: seq<string>)
    requires forall w :: w in ws ==> IsWord(w)
    ensures Normalized(Join(" ", ws))
    ensures ws != [] ==> |Join(" ", ws)| > 0
  {
    if |ws| == 1 {
      var w := ws[0];
      assert w in ws;
      assert Join(" ", ws) == w;
    } else if |ws| > 1 {
      var w, rest := ws[0], Join(" ", ws[1..]);
      assert w in ws;
      assert forall v :: v in ws[1..] ==> v in ws;
      JoinNormalized(ws[1..]);
      var r := w + " " + rest;
      assert Join(" ", ws) == r;
      assert |r| == |w| + 1 + |rest|;
      forall i | 0 <= i < |r| && IsSpace(r[i])
        ensures r[i] == ' ' && 0 < i < |r| - 1 && !IsSpace(r[i - 1]) && !IsSpace(r[i + 1])
      {
        if i == |w| {
          assert r[i + 1] == rest[0];
          assert r[i - 1] == w[|w| - 1];
        } else if i > |w| {
          var j := i - |w| - 1;
          assert r[i] == rest[j];
          assert 0 < j;
          assert r[i - 1] == rest[j - 1] && r[i + 1] == rest[j + 1];
        }
      }
      assert r[|r| - 1] == rest[|rest| - 1];
    }
  }

  /** Normalising keeps the words and leaves a normalised string; doing it again changes nothing. */
  lemma NormalizeWhitespaceProperties(s: string)
    ensures Words(NormalizeWhitespace(s)) == Words(s)
    ensures Normalized(NormalizeWhitespace(s))
    ensures NormalizeWhitespace(NormalizeWhitespace(s)) == NormalizeWhitespace(s)
  {
    WordsOfJoin(Words(s));
    JoinNormalized(Words(s));
  }
}

=== FILE: wrappers.dfy ===
/** Python's `None`-or-value, used for the optional keys of the record dictionaries. */
module Wrappers {

  datatype Option<+T> = None | Some(value: T) {

    /** The value, or `default` when absent (`dict.get(key, default)`). */
    function GetOr(default: T): (r: T)
      ensures Some? ==> r == value
      ensures None? ==> r == default
    {
      match this
      case Some(v) => v
      case None => default
    }
  }
}
